=== FILE: README.md ===
# Native capture core, modelled in Dafny

This project models the Windows capture module of a Tauri desktop application
(`src-tauri/src/capture.rs`). The module lists the windows and monitors a user
can share, each with a thumbnail. It streams the chosen target's video frames,
throttled and re-encoded as JPEG, and the system audio through one of two
WASAPI loopback tiers. A small controller starts, switches and stops these
sessions.

Modules, one per concern of the source:

- `Outcomes`: `Option`, `Result` and `Outcome` (a `Result<(), String>`).
- `Seqs`: sequence concatenation and a few product facts shared by the proofs.
- `Text`: ASCII lower-casing, substring search, decimal formatting, and
  `str::parse` for `isize`/`usize` with Rust's `ParseIntError` kinds and
  their check order.
- `FramePipeline`: the fps clamp, the per-frame throttle, and BGRA→RGB
  repacking of a frame with a stride and of a packed buffer. Includes the
  capture handler as a class whose `lastFrameTime` a frame updates.
- `Thumbnail`: `thumb_size`, JPEG/base64 encoding of a thumbnail, and the
  window and monitor thumbnail size gates.
- `AudioSamples`: `decode_samples`, `downmix_to_stereo`, and the regular tier's
  byte queue. One queue drain (decode, downmix, packet) is proved equal to a
  function of the queue's contents.
- `AudioLoopback`: the INCLUDE/EXCLUDE mode choice and the fixed capture
  format. Also both capture loops as methods over sequences of wake-ups, the
  setup steps of each tier with their error messages, and the fallback from
  the process tier to the regular tier.
- `TargetIds`: `window:<hwnd>` / `monitor:<i>` ids, their parsing and
  resolution in `start_wgc_capture`, and the round trip from the ids the picker
  produces.
- `TargetPicker`: the capturable-window filter and `enumerate_capture_targets`.
- `Session`: the controller's globals (`CAPTURE_RUNNING`, `CAPTURE_CONTROL`,
  `AUDIO_STOP_FLAG`, `AUDIO_THREAD_HANDLE`) as a class. Its methods are
  `start_capture`, `switch_capture_target`, `stop_capture` and `on_closed`.
  Threads, stop flags and video controls are tokens. A log records each
  effect on the outside world, and a thread counts as live from its spawn
  until it is joined. `Valid()` says every live thread is the one in the
  slot, so at most one audio thread runs and it can always be stopped.

Everything the operating system supplies is a parameter of the model:

- window and monitor lists;
- the results of Win32, WGC, DWM and WASAPI calls;
- the instants of `Instant::now()`;
- grabbed pixels;
- the JPEG compressor and the base64 encoder;
- the process id of the application itself.

Three behaviours of the code the model keeps as written:

- A frame whose buffer or JPEG compression fails returns that error from
  `on_frame_arrived` through `?` (capture.rs:155, 190). The failure is not
  suppressed.
- `switch_capture_target` spawns the new audio thread before it resolves the
  new target (capture.rs:700-719). A switch to a target that does not exist
  therefore returns the error with `running` still set, no video control, and
  the new audio thread live. It does not leave a clean stopped state.
- An audio tier that fails everywhere is only printed by the spawned thread
  (capture.rs:669-671, and 712-714 in a switch). It never becomes the result of `start_capture`.

## Model

| member | source | states |
|---|---|---|
| Text.ToLower | src-tauri/src/capture.rs:245 | keeps the length and lower-cases every ASCII letter position by position |
| Text.ParseInt | src-tauri/src/capture.rs:575-577 | a parse succeeds exactly on an optional sign the type accepts ('+', and '-' when signed) followed by at least one digit whose value is in the type's range, and yields that value; `InvalidDigit` means the part after the sign is empty or holds a non-digit; `Empty` is reported exactly for the empty string |
| Text.ScanDigits | src-tauri/src/capture.rs:606-608 | the scan succeeds exactly when every character is a digit and their decimal value (negated for a negative number) lies in range, and then yields that value; `InvalidDigit` implies a non-digit; overflow is `PosOverflow` only for positive and `NegOverflow` only for negative numbers |
| Text.NatToString | src-tauri/src/capture.rs:521 | `{}` of an index is a non-empty string of decimal digits |
| Text.ScanNatToString | src-tauri/src/capture.rs:575-577 | scanning the digits `{}` prints gives the number back, with its sign |
| Text.IsizeRoundTrip | src-tauri/src/capture.rs:498 | every `isize` printed with `{}` parses back to itself |
| Text.UsizeRoundTrip | src-tauri/src/capture.rs:521 | every `usize` printed with `{}` parses back to itself |
| Text.UsizeRejectsMinus | src-tauri/src/capture.rs:606-608 | a `usize` parse of text starting with '-' fails with `InvalidDigit` |
| Text.ScanLeadingNonDigit | src-tauri/src/capture.rs:606-608 | for every integer type and sign, a value whose first character is not a digit is an invalid digit |
| Text.ScanStopsAtNonDigit | src-tauri/src/capture.rs:606-608 | a non-digit reached while the digits before it are still in range is reported as an invalid digit, whatever follows it |
| FramePipeline.ClampFps | src-tauri/src/capture.rs:130 | the rate lies in 1..60 and is the requested rate when that is in range, 1 below it and 60 above it |
| FramePipeline.FpsIntervalMs | src-tauri/src/capture.rs:133 | the interval is 1000 divided by the clamped rate, rounded down, between 16 and 1000 ms |
| FramePipeline.DueMeansSpaced | src-tauri/src/capture.rs:144-148 | a frame is processed exactly when at least the interval has passed since the last processed one |
| FramePipeline.ProcessedSpacing | src-tauri/src/capture.rs:143-149 | of any arrival sequence at most as many frames are processed as arrived, the first at least one interval after the last processed one and each later one at least one interval after the previous |
| FramePipeline.RepackStrided | src-tauri/src/capture.rs:161-179 | the nested loop produces the row-by-row RGB of the frame at the stride `len / height`; at most 3 bytes per pixel; nothing when height is 0 |
| FramePipeline.RepackPacked | src-tauri/src/capture.rs:302-311 | the thumbnail loop produces the RGB of the packed pixels, 3 bytes each when the buffer is large enough |
| FramePipeline.FrameComplete | src-tauri/src/capture.rs:170-179 | when the buffer holds every row, the output has 3·w·h bytes and pixel (y,x) is R,G,B of the BGRA at `y·stride + 4x` |
| FramePipeline.LiveFrameComplete | src-tauri/src/capture.rs:161-179 | with a buffer of at least 4·w·h bytes the derived stride covers a row and every pixel is converted |
| FramePipeline.FramePixel | src-tauri/src/capture.rs:172-177 | one pixel of the converted frame is the swapped BGRA triple at its offset |
| FramePipeline.RowComplete | src-tauri/src/capture.rs:171-177 | a row fully inside the buffer converts to 3 bytes per pixel, each the swapped triple |
| FramePipeline.CaptureHandler.constructor | src-tauri/src/capture.rs:129-136 | the handler keeps the interval of the clamped rate and the creation instant |
| FramePipeline.CaptureHandler.OnFrameArrived | src-tauri/src/capture.rs:138-204 | a frame inside the interval is dropped and the clock kept; otherwise the clock advances and the buffer error, the compressor error, or a payload of the compressed frame RGB results |
| Thumbnail.Scale | src-tauri/src/capture.rs:291-293 | the scale is positive, at most 1, fits both 320/w and 180/h, and is one of 1, 320/w and 180/h (so the smallest of the three) |
| Thumbnail.ThumbSizeZero | src-tauri/src/capture.rs:288-290 | a zero side gives 1×1 |
| Thumbnail.ThumbSizeFits | src-tauri/src/capture.rs:287-298 | the thumbnail is at least 1×1, within 320×180, and never larger than the source |
| Thumbnail.ThumbSizeKeepsSmall | src-tauri/src/capture.rs:291-297 | a source already within 320×180 keeps its size |
| Thumbnail.BgraToJpegBase64 | src-tauri/src/capture.rs:301-323 | the base64 of the compressed repacked pixels at quality 70, or "" when compression fails |
| Thumbnail.Side | src-tauri/src/capture.rs:373-374 | a side is the rectangle's extent when that is at least 1, and exactly 1 otherwise |
| Thumbnail.SizeGate | src-tauri/src/capture.rs:373-377 | the thumbnail is attempted exactly when both extents are at least 10 |
| Thumbnail.WindowThumbnail | src-tauri/src/capture.rs:356-407 | a minimised window or a failed rect gives ("",0,0); otherwise the window's size, with a thumbnail only for a large enough window and a valid screen DC |
| Thumbnail.MonitorThumbnail | src-tauri/src/capture.rs:410-455 | "" without a DC or with a zero side; otherwise the encoded thumbnail at `thumb_size` |
| AudioSamples.I16Value | src-tauri/src/capture.rs:763 | a little-endian i16 lies in −32768..32767 and is negative exactly when the high byte's top bit is set |
| AudioSamples.I16RoundTrip | src-tauri/src/capture.rs:763 | encoding an i16 to two bytes and decoding gives it back |
| AudioSamples.I16BytesRoundTrip | src-tauri/src/capture.rs:763 | decoding two bytes and re-encoding gives them back |
| AudioSamples.Pcm16Range | src-tauri/src/capture.rs:763 | a 16-bit sample scaled by 1/32768 lies in [−1, 1) |
| AudioSamples.DecodedLength | src-tauri/src/capture.rs:755-759 | at most `total` samples, all within the buffer; fewer only when the next one would overrun it |
| AudioSamples.DecodedCount | src-tauri/src/capture.rs:753-770 | with a positive width, `decode_samples` yields `min(total, len / bps)` samples |
| AudioSamples.DecodedOtherWidths | src-tauri/src/capture.rs:760-766 | widths other than 2 and 4 bytes decode every sample to 0 |
| AudioSamples.DecodedFull | src-tauri/src/capture.rs:753-770 | a buffer of `total·bps` bytes gives exactly `total` samples |
| AudioSamples.DecodedAt | src-tauri/src/capture.rs:756-767 | sample k is the decoding of bytes `k·bps .. k·bps+bps` |
| AudioSamples.Decoded16Range | src-tauri/src/capture.rs:762-763 | every 16-bit decoded sample lies in [−1, 1) |
| AudioSamples.DecodeSamples | src-tauri/src/capture.rs:753-770 | the loop returns the decoded sample sequence |
| AudioSamples.DownmixToStereo | src-tauri/src/capture.rs:773-796 | the loops return the stereo downmix |
| AudioSamples.DownmixShape | src-tauri/src/capture.rs:773-796 | stereo passes through; mono duplicates each sample; more channels take ch0 and ch1 of each frame; missing samples read as 0; 2·frames samples otherwise |
| AudioSamples.Consumed | src-tauri/src/capture.rs:1182-1183 | the bytes a drain pops are the whole samples; fewer than one sample's bytes stay |
| AudioSamples.SampleQueue.PopFront | src-tauri/src/capture.rs:1203-1214 | `pop_front` of an empty deque is None and leaves it; otherwise the first byte, removed |
| AudioSamples.SampleQueue.Extend | src-tauri/src/capture.rs:1176 | reading the device appends to the deque |
| AudioSamples.PopSample | src-tauri/src/capture.rs:1201-1218 | popping one sample decodes the first `bps` bytes and removes them |
| AudioSamples.PopSamples | src-tauri/src/capture.rs:1199-1220 | the pop loop yields the decoded samples of the popped prefix and leaves the suffix |
| AudioSamples.DrainOnce | src-tauri/src/capture.rs:1178-1230 | one drain's result and remaining queue are those of `DrainStep` of the old queue |
| AudioSamples.DrainStepFacts | src-tauri/src/capture.rs:1178-1230 | panic exactly on a non-empty queue with 0 bytes per sample or 0 channels; idle keeps the queue; a packet is the downmix of all whole samples, `frames = samples / channels > 0`, leaving `len % bps` bytes |
| AudioSamples.IdleBelowFrame | src-tauri/src/capture.rs:1183-1188 | no frame is emitted only while the queue holds less than one frame |
| AudioSamples.PacketDecodesAll | src-tauri/src/capture.rs:1199-1220 | every whole sample in the queue is decoded |
| AudioLoopback.CaptureFormatConsistent | src-tauri/src/capture.rs:977-997 | 48 kHz, 2 channels, 16 bit, block align 4, 192000 B/s; the init flags are loopback, event callback and autoconvert |
| AudioLoopback.ModeNameLower | src-tauri/src/capture.rs:991 | the lower-cased mode names are "include" and "exclude" |
| AudioLoopback.InfoTextsDistinct | src-tauri/src/capture.rs:812-815 | neither tier's format notice is the fallback notice |
| AudioLoopback.FirstFailure | src-tauri/src/capture.rs:889-1026 | setup reports the first failing step's message, "<step>: <error>", or nothing when all succeed |
| AudioLoopback.DrainPackets | src-tauri/src/capture.rs:1041-1085 | the inner loop emits the packets grabbed before the first failed or empty grab |
| AudioLoopback.DrainedPackets | src-tauri/src/capture.rs:1041-1085 | every emitted packet comes, in order, from a successful non-empty grab, and the loop stops at the first failed or empty one |
| AudioLoopback.PacketShape | src-tauri/src/capture.rs:1068-1081 | a process-tier packet is 48 kHz stereo with 2·frames samples, each in [−1, 1) |
| AudioLoopback.ProcessCaptureLoop | src-tauri/src/capture.rs:1032-1086 | the capture loop's events are `ProcessLoopEvents` of its wake-ups (a timeout emits nothing, a wake-up drains the packets) |
| AudioLoopback.ProcessLoopOnlyAudio | src-tauri/src/capture.rs:1032-1086 | the loop emits only 48 kHz stereo audio with at least one frame; when every packet is exposed as its `4 * frames` bytes, each payload holds `2 * frames` samples, all in [-1, 1) |
| AudioLoopback.WholeLoopPayloads | src-tauri/src/capture.rs:1068-1082 | when every packet is its `4 * frames` bytes, every payload of the loop holds `2 * frames` samples in [-1, 1) |
| AudioLoopback.WholePayloads | src-tauri/src/capture.rs:1068-1082 | the payloads one wake-up drains from whole packets hold `2 * frames` samples each, all in [-1, 1) |
| AudioLoopback.PanicIsFinal | src-tauri/src/capture.rs:1183-1184 | after a division by zero the thread is gone and later wake-ups change nothing |
| AudioLoopback.RegularCaptureLoop | src-tauri/src/capture.rs:1168-1236 | the loop over a byte deque emits the events and ends as `RegularRun` of its wake-ups |
| AudioLoopback.RegularBacklog | src-tauri/src/capture.rs:1171-1236 | with a non-zero sample size and channel count the loop never panics, keeps less than one frame queued, and emits only stereo audio |
| AudioLoopback.RegularEventsAudio | src-tauri/src/capture.rs:1171-1236 | the regular loop emits only audio |
| AudioLoopback.ProcessTier | src-tauri/src/capture.rs:867-1102 | never panics; ends `Done` exactly when activation and start both succeed; a failed activation ends with its step's message and no events; a failed start ends with its step's message after only the INCLUDE/EXCLUDE info event |
| AudioLoopback.ProcessTierEvents | src-tauri/src/capture.rs:987-1086 | the process tier's first event, if any, announces INCLUDE with the window's pid for a window share and EXCLUDE with the app's own pid for a monitor share; then it emits only audio, never the fallback notice |
| AudioLoopback.RegularTierEvents | src-tauri/src/capture.rs:1138-1236 | the regular tier announces the device format first, then emits only audio, never the fallback notice |
| AudioLoopback.FallbackOnce | src-tauri/src/capture.rs:803-819 | a process tier that finishes is the whole run; otherwise its events, one fallback notice, then the regular tier, which decides the end |
| TargetIds.SplitOnce | src-tauri/src/capture.rs:550-553 | no part exactly when there is no ':'; otherwise the text before the first ':' and all after it |
| TargetIds.ParseTargetId | src-tauri/src/capture.rs:547-637 | a parsed window is a `window` kind whose value parses as an `isize` to its handle, a parsed monitor a `monitor` kind whose value parses as a `usize` to its index; handles and indexes are in range |
| TargetIds.ParseCases | src-tauri/src/capture.rs:550-636 | every outcome in the source's order: no ':', unknown kind, bad HWND, bad index with their messages; a value that parses gives the kind's target holding it |
| TargetIds.LeadingZeros | src-tauri/src/capture.rs:575-577 | "window:007" names the window with handle 7 |
| TargetIds.PlusSign | src-tauri/src/capture.rs:606-608 | "monitor:+1" names monitor 1 |
| TargetIds.TrailingLetter | src-tauri/src/capture.rs:575-577 | "window:12a" fails with "Invalid HWND: invalid digit found in string" |
| TargetIds.NegativeMonitorIndex | src-tauri/src/capture.rs:606-608 | a signed monitor index is refused as an invalid digit |
| TargetIds.WindowIdRoundTrip | src-tauri/src/capture.rs:498 | the id the picker gives a window parses back to its handle |
| TargetIds.MonitorIdRoundTrip | src-tauri/src/capture.rs:521 | the id the picker gives a monitor parses back to its position |
| TargetIds.Resolve | src-tauri/src/capture.rs:579-584 | a resolved window is in the enumeration and a resolved monitor below the count; missing ones give "Window not found" / "Monitor not found" |
| TargetIds.StartWgcCapture | src-tauri/src/capture.rs:542-641 | succeeds exactly when the id parses, resolves and the session starts, with the parsed target |
| TargetIds.PickerIdsStart | src-tauri/src/capture.rs:497-522 | an id the picker produced starts its own target while present, and fails with "not found" once gone |
| TargetPicker.EntryExactlyWhenListed | src-tauri/src/capture.rs:465-507 | with distinct handles, a window has an entry under its id exactly when it passes the title, own-app, denylist, visibility, cloaking and tool-window checks |
| TargetPicker.NameChecksIgnoreCase | src-tauri/src/capture.rs:245-246 | the process-name checks ignore ASCII case |
| TargetPicker.BackgroundRefused | src-tauri/src/capture.rs:244-248 | a denylisted process is refused whatever its window state |
| TargetPicker.DenylistLowerCase | src-tauri/src/capture.rs:223-233 | the denylist entries are all lower case, so the lower-cased comparison can match them |
| TargetPicker.ListWindows | src-tauri/src/capture.rs:465-507 | the window loop yields the entries of the listed windows, in order |
| TargetPicker.ListMonitors | src-tauri/src/capture.rs:511-530 | the monitor loop yields one entry per monitor, in order |
| TargetPicker.EnumerateCaptureTargets | src-tauri/src/capture.rs:459-537 | the windows' entries, then the monitors'; a failed enumeration contributes nothing |
| TargetPicker.WindowTargetsSound | src-tauri/src/capture.rs:465-507 | every window entry comes from a listed window |
| TargetPicker.WindowTargetsComplete | src-tauri/src/capture.rs:465-507 | every listed window has its entry |
| TargetPicker.WindowEntries | src-tauri/src/capture.rs:467-506 | window entries have a real title, are not the app itself, and carry an id that parses to a window |
| TargetPicker.MonitorEntries | src-tauri/src/capture.rs:511-530 | entry i is monitor i, with an id parsing back to i, process id 0 and type "monitor" |
| Session.ControlWrapper.StopCapture | src-tauri/src/capture.rs:87-92 | the control is taken once; a second stop finds nothing; the stop error is returned only when there was a control |
| Session.CaptureSession.constructor | src-tauri/src/capture.rs:61-67 | not running, all slots empty, nothing happened yet |
| Session.CaptureSession.SpawnAudio | src-tauri/src/capture.rs:700-712 | with empty slots, stores a new flag and thread; that thread is the only live one |
| Session.CaptureSession.SpawnOver | src-tauri/src/capture.rs:658-669 | stores a new flag and thread over the slots; the new thread joins whatever was live |
| Session.CaptureSession.StopAudio | src-tauri/src/capture.rs:731-741 | from any state: sets the stored flag, joins the stored thread, empties both slots; exactly the stored thread stops being live, so under the invariant none is live afterwards |
| Session.CaptureSession.StopVideo | src-tauri/src/capture.rs:744-746 | from any state: takes the control and stops it; the slot is empty even when the stop fails; the live audio threads are untouched |
| Session.CaptureSession.StoreVideo | src-tauri/src/capture.rs:656-657 | stores a fresh control for the resolved target at the clamped rate |
| Session.CaptureSession.StartAsWritten | src-tauri/src/capture.rs:645-677 | refuses while running; a target error leaves everything; otherwise running with a new control, and with audio a new thread added to those live |
| Session.CaptureSession.Start | src-tauri/src/capture.rs:645-677 | as written, except that any stale thread is signalled and joined first, so the invariant holds and exactly the new thread is live |
| Session.CaptureSession.Switch | src-tauri/src/capture.rs:681-723 | refuses unless running; a failed video stop returns with the audio untouched; otherwise old audio stopped and joined before the new thread, then the new video or its error; at most one live thread throughout |
| Session.CaptureSession.Restart | src-tauri/src/capture.rs:689-721 | the join-before-spawn half of a switch, then the new video start |
| Session.CaptureSession.Stop | src-tauri/src/capture.rs:727-748 | from any state: clears running, joins the stored audio thread before stopping the video, empties every slot, returns the video stop error; exactly the stored thread stops being live, so under the invariant none is live afterwards |
| Session.CaptureSession.OnClosed | src-tauri/src/capture.rs:207-211 | only the running flag is cleared; the slots keep their contents |
| Session.OrphanedAudioThread | src-tauri/src/capture.rs:645-677 | start with audio, close, start again as written: two live threads and only one held; a `stop_capture` then leaves the first thread live |
| Session.NoOrphanAfterRestart | src-tauri/src/capture.rs:645-677 | the same sequence with the corrected start: one live thread, the one held, and none after a stop |

## Left out

- Windows APIs (WGC, GDI, DWM, WASAPI, COM) are parameters or abstract
  results. The model has no pixel grabbing, `StretchBlt` or `GetDIBits`, no
  `PROPVARIANT` or activation-parameter layout, and no 5-second activation
  wait.
- JPEG compression and base64 encoding are function parameters. The model
  states which pixels they receive, at which size and quality, and what
  happens when they fail.
- `f32::from_le_bytes` keeps its four bytes undecoded, as the `F32` sample,
  because floating point is not modelled.
- `thumb_size` is computed over reals, rounding halves up, which is Rust's `round` for the non-negative values here. The
  model leaves out f64 rounding error and the saturation of `as u32`.
- Frame timestamps (wall-clock f64 milliseconds) are left out of the frame
  payload.
- The model has no concurrency: threads are tokens, the stop flag a token,
  and joining is instantaneous. Each capture loop runs over a given sequence
  of wake-ups, and the stop flag is the end of that sequence.
- `to_lowercase` is modelled on ASCII letters only. No Unicode case mapping is
  modelled.
- The window rectangle is held in unbounded integers. Overflow of the `i32`
  subtraction and the `u32` cast is not modelled.
- The width × height product is computed as a `u32` in the source
  (capture.rs:168, 302). The model uses unbounded naturals.
- The process tier reads the render device's mix format (capture.rs:886-912)
  and only prints it. The model keeps only that reading's failure messages.
- `println!`/`eprintln!` output is left out.
- The `spawn_blocking` join errors ("spawn_blocking: ...") are left out
  because they depend on the async runtime.
- The border-setting probe of `start_wgc_capture` and the capture settings are
  left out.
- TargetPicker.ListWindows and TargetPicker.ListMonitors take each window's
  (thumbnail, width, height) triple and each monitor's thumbnail as inputs. The
  triple stands for what Thumbnail.WindowThumbnail returns (capture.rs:493) and
  the monitor's for Thumbnail.MonitorThumbnail (capture.rs:516), but the picker
  does not call them. So the model does not state that a window entry's size is
  its rectangle's size, or 0 x 0 when the window is minimised.
- The frame rate reaches a video session only as the clamped value recorded
  when the session starts.
- The non-Windows stubs (capture.rs:1250-1288) are left out; every command
  there returns the same error.
- The command registration in lib.rs is not part of this model. It registers
  enumerate, start and stop, but not `switch_capture_target`.
- Session.CaptureSession.Switch: requires the controller's invariant, so a
  switch from the state the as-written start leaves behind (an orphaned second
  live thread) is not modelled; `stop_capture` from that state is.
- AudioSamples.DrainStepFacts: for the Idle case it states only that the queue
  is kept and holds less than one frame or nothing. An empty queue reads as
  Idle even with zero bytes per sample, as in the source, where the empty
  check comes before the division.
- Session.CaptureSession.StartAsWritten: does not promise `Valid()`
  afterwards, because with a stale thread in the slots the source breaks it.
  This is the finding below.

## Findings

| source | as written | input that shows it | evidently intended | confidence | as-written member | corrected member |
|---|---|---|---|---|---|---|
| src-tauri/src/capture.rs:645-677 with 207-211 | `on_closed` clears `CAPTURE_RUNNING` but leaves `AUDIO_STOP_FLAG` and `AUDIO_THREAD_HANDLE` set. A later `start_capture` with audio overwrites both slots, so the old thread's flag can never be set and the old thread is never joined. | `start_capture("monitor:0", 30, true, 0)`, then the monitor's capture closes (`on_closed`), then `start_capture("monitor:0", 30, true, 0)` again: two loopback threads run, and `stop_capture` stops only the second | at most one audio thread, and every running thread reachable through the slots (as `switch_capture_target` ensures by taking, setting and joining before spawning) | not executed | Session.OrphanedAudioThread | Session.CaptureSession.Start |

=== FILE: audio_loopback.dfy ===
/**
 * The WASAPI loopback audio thread: the choice of process-loopback mode, the
 * fixed capture format, the packet drain of the process-loopback loop, the
 * byte-queue loop of the regular loopback, and the two-tier fallback between
 * them.
 *
 * Every COM/WASAPI call is reduced to its outcome. A setup step either
 * succeeds or fails with an error text; a wait either times out or wakes the
 * loop; `GetBuffer` either fails or hands over a packet of frames. The stop
 * flag is reduced to the finite sequence of wakeups the loop sees before it
 * observes the flag. The thread's Tauri events are collected in a log.
 */
module AudioLoopback {
  import opened Outcomes
  import opened Text
  import opened AudioSamples

  // ------------------------------------------------------------ mode selection

  /** `PROCESS_LOOPBACK_MODE_INCLUDE_TARGET_PROCESS_TREE` or `..._EXCLUDE_...`. */
  datatype LoopbackMode = Include | Exclude

  function ModeName(m: LoopbackMode): string
  {
    if m == Include then "INCLUDE" else "EXCLUDE"
  }

  /**
   * The process tree and mode of the activation: a window share (`targetPid >
   * 0`) includes only the target's tree; a monitor share excludes our own
   * process (`ownPid`, `std::process::id()`).
   */
  function LoopbackTarget(targetPid: nat, ownPid: nat): (r: (nat, LoopbackMode))
  {
    if targetPid > 0 then (targetPid, Include) else (ownPid, Exclude)
  }

  // ------------------------------------------------------------ capture format

  /** The fields of a `WAVEFORMATEX`. */
  datatype WaveFormat = WaveFormat(formatTag: nat, channels: nat, samplesPerSec: nat, bitsPerSample: nat,
                                   blockAlign: nat, avgBytesPerSec: nat, cbSize: nat)

  const CAPTURE_RATE: nat := 48000
  const CAPTURE_CHANNELS: nat := 2
  const CAPTURE_BITS: nat := 16
  /** Bytes per sample in the process-loopback loop. */
  const CAPTURE_BYTES_PER_SAMPLE: nat := 2

  /** The format process loopback asks Windows to convert to: PCM, 48 kHz, stereo, 16-bit. */
  const CAPTURE_FORMAT: WaveFormat :=
    WaveFormat(1, 2, 48000, 16, 2 * 16 / 8, 48000 * 2 * 16 / 8, 0)

  const AUDCLNT_STREAMFLAGS_LOOPBACK: bv32 := 0x0002_0000
  const AUDCLNT_STREAMFLAGS_EVENTCALLBACK: bv32 := 0x0004_0000
  const AUDCLNT_STREAMFLAGS_AUTOCONVERTPCM: bv32 := 0x8000_0000
  const INIT_FLAGS: bv32 := AUDCLNT_STREAMFLAGS_LOOPBACK | AUDCLNT_STREAMFLAGS_EVENTCALLBACK | AUDCLNT_STREAMFLAGS_AUTOCONVERTPCM

  /**
   * The format is self-consistent: a block is one frame of every channel, the
   * byte rate is one block per sample period, and it matches the constants
   * the capture loop decodes with. The flags are exactly the three named bits.
   */
  lemma CaptureFormatConsistent()
    ensures CAPTURE_FORMAT.blockAlign == CAPTURE_FORMAT.channels * CAPTURE_FORMAT.bitsPerSample / 8 == 4
    ensures CAPTURE_FORMAT.avgBytesPerSec == CAPTURE_FORMAT.samplesPerSec * CAPTURE_FORMAT.blockAlign == 192000
    ensures CAPTURE_FORMAT.channels == CAPTURE_CHANNELS && CAPTURE_FORMAT.samplesPerSec == CAPTURE_RATE
    ensures CAPTURE_FORMAT.bitsPerSample == CAPTURE_BITS == 8 * CAPTURE_BYTES_PER_SAMPLE
    ensures INIT_FLAGS == 0x8006_0000
    ensures INIT_FLAGS & AUDCLNT_STREAMFLAGS_LOOPBACK != 0 && INIT_FLAGS & AUDCLNT_STREAMFLAGS_EVENTCALLBACK != 0
    ensures INIT_FLAGS & AUDCLNT_STREAMFLAGS_AUTOCONVERTPCM != 0
  {
  }

  // ------------------------------------------------------------ events

  /** What the audio thread emits: a `wasapi-info` text or a `capture-audio` payload. */
  datatype Event = Info(text: string) | Audio(payload: AudioPayload)

  /** The `wasapi-info` text of an activated process loopback. */
  function ProcessInfo(mode: LoopbackMode, pid: nat): string
  {
    var format := NatToString(CAPTURE_RATE) + "Hz " + NatToString(CAPTURE_CHANNELS) + "ch "
      + NatToString(CAPTURE_BITS) + "bit PCM";
    "WASAPI (process-" + ToLower(ModeName(mode)) + ", PID=" + NatToString(pid) + "): " + format
  }

  /** The `wasapi-info` text of the regular loopback, with the device's mix format. */
  function RegularInfo(rate: nat, channels: nat, bits: nat): string
  {
    var format := NatToString(rate) + "Hz " + NatToString(channels) + "ch " + NatToString(bits) + "bit";
    "WASAPI (regular): " + format
  }

  /** The `wasapi-info` text announcing the fallback. */
  const FALLBACK_INFO: string := "WASAPI: regular loopback " + "(process loopback unavailable)"

  /** The mode appears lower-cased in the info text. */
  lemma ModeNameLower()
    ensures ToLower(ModeName(Include)) == "include" && ToLower(ModeName(Exclude)) == "exclude"
  {
  }

  /** Neither tier's own info text can be mistaken for the fallback notice. */
  lemma InfoTextsDistinct(mode: LoopbackMode, pid: nat, rate: nat, channels: nat, bits: nat)
    ensures ProcessInfo(mode, pid) != FALLBACK_INFO && RegularInfo(rate, channels, bits) != FALLBACK_INFO
  {
    assert FALLBACK_INFO[6] == ':';
    assert ProcessInfo(mode, pid)[6] == ' ';
    assert RegularInfo(rate, channels, bits)[6] == ' ';
  }

  // ------------------------------------------------------------ setup steps

  /** The error text of the one step whose failure carries no OS error. */
  const NO_AUDIO_CLIENT: string := "No audio client returned"

  /** The steps of process-loopback activation, before the info event, in order. */
  const PROCESS_ACTIVATION: seq<string> := ["DeviceEnumerator", "get device", "get client", "get format",
    "CreateEventW", "ActivateAudioInterfaceAsync", "GetActivateResult", "Activation HRESULT",
    NO_AUDIO_CLIENT, "Cast IAudioClient"]

  /** The steps that start the process-loopback stream, after the info event. */
  const PROCESS_START: seq<string> := ["Initialize", "GetService(IAudioCaptureClient)", "CreateEventW",
    "SetEventHandle", "Start"]

  /** The steps of regular loopback before its info event. */
  const REGULAR_DEVICE: seq<string> := ["DeviceEnumerator", "get device", "get client", "get format"]

  /** The steps that start the regular stream. */
  const REGULAR_START: seq<string> := ["init client", "get capture client", "set event", "start stream"]

  /** The step after the regular loop ends. */
  const REGULAR_STOP: string := "stop stream"

  /** The message a failed step returns: its name and the OS error, as `map_err(|e| format!("{name}: {e}"))` builds it. */
  function StepMessage(name: string, error: string): string
  {
    if name == NO_AUDIO_CLIENT then name else name + ": " + error
  }

  /**
   * A chain of fallible steps joined by `?`: the message of the first step
   * whose OS call failed, or None when all succeed. `errors[i]` is the error of
   * step `i`, if it failed; a missing entry means success.
   */
  function FirstFailure(names: seq<string>, errors: seq<Option<string>>): (r: Option<string>)
    ensures r.None? <==> forall i :: 0 <= i < |names| && i < |errors| ==> errors[i].None?
    ensures r.Some? ==> exists i :: (0 <= i < |names| && i < |errors| && errors[i].Some? &&
      (forall j :: 0 <= j < i ==> errors[j].None?) && r.value == StepMessage(names[i], errors[i].value))
  {
    if names == [] || errors == [] then None
    else if errors[0].Some? then Some(StepMessage(names[0], errors[0].value))
    else
      var rest := FirstFailure(names[1..], errors[1..]);
      assert forall i :: 1 <= i < |names| && i < |errors| ==> errors[i] == errors[1..][i - 1];
      if rest.Some? then
        var i :| 0 <= i < |names| - 1 && i < |errors| - 1 && errors[1..][i].Some? &&
          (forall j :: 0 <= j < i ==> errors[1..][j].None?) && rest.value == StepMessage(names[1..][i], errors[1..][i].value);
        assert errors[i + 1].Some? && forall j :: 0 <= j < i + 1 ==> errors[j].None?;
        rest
      else rest
  }

  // ------------------------------------------------------------ the process-loopback loop

  /** One `GetBuffer` call: it fails, or hands over `frames` frames whose bytes `from_raw_parts` exposes as `data`. */
  datatype BufferGrab = GrabFailed | Grabbed(frames: nat, data: seq<bv8>)

  /** The payload one packet becomes: 16-bit stereo decoded and passed through the (identity) stereo downmix. */
  function PacketPayload(frames: nat, data: seq<bv8>): AudioPayload
  {
    var total := frames * CAPTURE_CHANNELS;
    AudioPayload(Downmix(Decoded(data, CAPTURE_BYTES_PER_SAMPLE, total), CAPTURE_CHANNELS, frames, ZERO),
                 CAPTURE_RATE, 2, frames)
  }

  /** Whether the drain loop stops at this `GetBuffer` result. */
  predicate StopsDrain(g: BufferGrab)
  {
    g.GrabFailed? || g.frames == 0
  }

  /** The payloads of one wakeup: one per packet, up to the first failed or empty `GetBuffer`. */
  function Drained(grabs: seq<BufferGrab>): seq<AudioPayload>
  {
    if grabs == [] || StopsDrain(grabs[0]) then []
    else [PacketPayload(grabs[0].frames, grabs[0].data)] + Drained(grabs[1..])
  }

  /** "Read all available packets": the inner loop of the process-loopback thread. */
  method DrainPackets(grabs: seq<BufferGrab>) returns (payloads: seq<AudioPayload>)
    ensures payloads == Drained(grabs)
  {
    payloads := [];
    var i := 0;
    while i < |grabs|
      invariant i <= |grabs|
      invariant Drained(grabs) == payloads + Drained(grabs[i..])
    {
      var g := grabs[i];
      if g.GrabFailed? || g.frames == 0 {
        break;
      }
      assert grabs[i..][1..] == grabs[i + 1..];
      var p := PacketPayload(g.frames, g.data);
      payloads := payloads + [p];
      i := i + 1;
    }
  }

  /**
   * The drain emits one payload per packet before the first stop, in order:
   * packet `k` gives payload `k`, with its frame count, at 48 kHz stereo.
   */
  lemma {:induction false} DrainedPackets(grabs: seq<BufferGrab>)
    ensures |Drained(grabs)| <= |grabs|
    ensures |Drained(grabs)| < |grabs| ==> StopsDrain(grabs[|Drained(grabs)|])
    ensures forall k :: 0 <= k < |Drained(grabs)| ==>
      !StopsDrain(grabs[k]) && Drained(grabs)[k] == PacketPayload(grabs[k].frames, grabs[k].data)
  {
    if grabs != [] && !StopsDrain(grabs[0]) {
      DrainedPackets(grabs[1..]);
      var rest := Drained(grabs[1..]);
      assert forall k :: 1 <= k < |Drained(grabs)| ==> Drained(grabs)[k] == rest[k - 1] && grabs[k] == grabs[1..][k - 1];
    }
  }

  /**
   * A whole packet (`4 * frames` bytes) yields `frames` stereo frames: exactly
   * `2 * frames` samples, each in [-1, 1).
   */
  lemma PacketShape(frames: nat, data: seq<bv8>)
    requires |data| == 4 * frames
    ensures PacketPayload(frames, data).channels == 2 && PacketPayload(frames, data).sampleRate == 48000
    ensures |PacketPayload(frames, data).data| == 2 * frames
    ensures forall s :: s in PacketPayload(frames, data).data ==> s.Exact? && -1.0 <= s.value < 1.0
  {
    DecodedFull(data, 2, frames * 2);
    Decoded16Range(data, frames * 2);
    DownmixShape(Decoded(data, 2, frames * 2), 2, frames, ZERO);
  }

  /** What the process-loopback loop sees on one turn: `WAIT_TIMEOUT`, or a wakeup followed by `GetBuffer` results. */
  datatype Wakeup = TimedOut | Woken(grabs: seq<BufferGrab>)

  /** One `capture-audio` event per payload, in order. */
  function AudioEvents(payloads: seq<AudioPayload>): seq<Event>
  {
    seq(|payloads|, k requires 0 <= k < |payloads| => Audio(payloads[k]))
  }

  function WakeupEvents(w: Wakeup): seq<Event>
  {
    if w.TimedOut? then [] else AudioEvents(Drained(w.grabs))
  }

  /** The events of the process-loopback loop over the wakeups it sees before the stop flag. */
  function ProcessLoopEvents(wakeups: seq<Wakeup>): seq<Event>
  {
    if wakeups == [] then []
    else ProcessLoopEvents(wakeups[..|wakeups| - 1]) + WakeupEvents(wakeups[|wakeups| - 1])
  }

  /** The process-loopback capture loop. */
  method ProcessCaptureLoop(wakeups: seq<Wakeup>) returns (events: seq<Event>)
    ensures events == ProcessLoopEvents(wakeups)
  {
    events := [];
    var i := 0;
    while i < |wakeups|
      invariant i <= |wakeups| && events == ProcessLoopEvents(wakeups[..i])
    {
      assert wakeups[..i + 1][..i] == wakeups[..i];
      match wakeups[i] {
        case TimedOut =>
        case Woken(grabs) =>
          var payloads := DrainPackets(grabs);
          events := events + AudioEvents(payloads);
      }
      i := i + 1;
    }
    assert wakeups[..i] == wakeups;
  }

  /** Every packet `GetBuffer` hands over is exposed as exactly `4 * frames` bytes, as `from_raw_parts` slices it. */
  predicate WholePackets(wakeups: seq<Wakeup>)
  {
    forall i, k :: 0 <= i < |wakeups| && wakeups[i].Woken? && 0 <= k < |wakeups[i].grabs| && wakeups[i].grabs[k].Grabbed? ==>
      |wakeups[i].grabs[k].data| == 4 * wakeups[i].grabs[k].frames
  }

  /**
   * The process-loopback loop emits only audio, at 48 kHz stereo, each packet
   * with at least one frame; when every packet is whole, each payload holds
   * `2 * frames` samples, all in [-1, 1).
   */
  lemma {:induction false} ProcessLoopOnlyAudio(wakeups: seq<Wakeup>)
    ensures forall e :: e in ProcessLoopEvents(wakeups) ==>
      e.Audio? && e.payload.sampleRate == CAPTURE_RATE && e.payload.channels == 2 && e.payload.frames > 0
    ensures WholePackets(wakeups) ==> forall e :: e in ProcessLoopEvents(wakeups) ==>
      e.Audio? && |e.payload.data| == 2 * e.payload.frames &&
      forall s :: s in e.payload.data ==> s.Exact? && -1.0 <= s.value < 1.0
  {
    if wakeups != [] {
      ProcessLoopOnlyAudio(wakeups[..|wakeups| - 1]);
      var w := wakeups[|wakeups| - 1];
      if w.Woken? {
        DrainedPackets(w.grabs);
      }
    }
    if WholePackets(wakeups) {
      WholeLoopPayloads(wakeups);
    }
  }

  /** Over whole packets, every payload of the loop holds `2 * frames` samples, all in [-1, 1). */
  lemma {:induction false} WholeLoopPayloads(wakeups: seq<Wakeup>)
    requires WholePackets(wakeups)
    ensures forall e :: e in ProcessLoopEvents(wakeups) ==>
      e.Audio? && |e.payload.data| == 2 * e.payload.frames &&
      forall s :: s in e.payload.data ==> s.Exact? && -1.0 <= s.value < 1.0
  {
    if wakeups != [] {
      var pre := wakeups[..|wakeups| - 1];
      assert WholePackets(pre) by {
        forall i, k | 0 <= i < |pre| && pre[i].Woken? && 0 <= k < |pre[i].grabs| && pre[i].grabs[k].Grabbed?
          ensures |pre[i].grabs[k].data| == 4 * pre[i].grabs[k].frames
        {
          assert pre[i] == wakeups[i];
        }
      }
      WholeLoopPayloads(pre);
      var w := wakeups[|wakeups| - 1];
      if w.Woken? {
        assert forall k :: 0 <= k < |w.grabs| && w.grabs[k].Grabbed? ==> |w.grabs[k].data| == 4 * w.grabs[k].frames by {
          assert w == wakeups[|wakeups| - 1];
        }
        WholePayloads(w.grabs);
      }
    }
  }

  /** The payloads of whole packets hold `2 * frames` samples each, all in [-1, 1). */
  lemma WholePayloads(grabs: seq<BufferGrab>)
    requires forall k :: 0 <= k < |grabs| && grabs[k].Grabbed? ==> |grabs[k].data| == 4 * grabs[k].frames
    ensures forall e :: e in AudioEvents(Drained(grabs)) ==>
      e.Audio? && |e.payload.data| == 2 * e.payload.frames &&
      forall s :: s in e.payload.data ==> s.Exact? && -1.0 <= s.value < 1.0
  {
    DrainedPackets(grabs);
    var payloads := Drained(grabs);
    forall k | 0 <= k < |payloads|
      ensures |payloads[k].data| == 2 * payloads[k].frames
      ensures forall s :: s in payloads[k].data ==> s.Exact? && -1.0 <= s.value < 1.0
    {
      PacketShape(grabs[k].frames, grabs[k].data);
    }
    assert forall e :: e in AudioEvents(payloads) ==> exists k :: 0 <= k < |payloads| && e == Audio(payloads[k]);
  }

  // ------------------------------------------------------------ the regular-loopback loop

  /** What the regular loop sees on one turn: a failed wait, a failed read, or bytes read from the device. */
  datatype RegularWakeup = WaitFailed | ReadFailed | ReadBytes(bytes: seq<bv8>)

  /** The regular loop's state: what it emitted, the queued bytes, and whether a drain panicked. */
  datatype RegularState = RegularState(events: seq<Event>, queue: seq<bv8>, panicked: bool)

  /** One turn: a read appends its bytes to the queue and drains it; failures change nothing; a panic ends the thread. */
  function RegularTurn(s: RegularState, w: RegularWakeup, bps: nat, channels: nat, rate: nat): RegularState
  {
    if s.panicked || !w.ReadBytes? then s
    else
      var (d, left) := DrainStep(s.queue + w.bytes, bps, channels, rate);
      match d
      case Idle => RegularState(s.events, left, false)
      case Packet(p) => RegularState(s.events + [Audio(p)], left, false)
      case Panic => RegularState(s.events, left, true)
  }

  /** The regular loop over the turns it sees before the stop flag, from an empty queue. */
  function RegularRun(wakeups: seq<RegularWakeup>, bps: nat, channels: nat, rate: nat): RegularState
  {
    if wakeups == [] then RegularState([], [], false)
    else RegularTurn(RegularRun(wakeups[..|wakeups| - 1], bps, channels, rate), wakeups[|wakeups| - 1], bps, channels, rate)
  }

  /** Once the thread has panicked, later turns never happen. */
  lemma {:induction false} PanicIsFinal(wakeups: seq<RegularWakeup>, i: nat, bps: nat, channels: nat, rate: nat)
    requires i <= |wakeups| && RegularRun(wakeups[..i], bps, channels, rate).panicked
    ensures RegularRun(wakeups, bps, channels, rate) == RegularRun(wakeups[..i], bps, channels, rate)
    decreases |wakeups| - i
  {
    if i < |wakeups| {
      var pre := wakeups[..|wakeups| - 1];
      assert pre[..i] == wakeups[..i];
      PanicIsFinal(pre, i, bps, channels, rate);
    } else {
      assert wakeups[..i] == wakeups;
    }
  }

  /** The regular-loopback capture loop, draining a `VecDeque<u8>` after every successful read. */
  method RegularCaptureLoop(wakeups: seq<RegularWakeup>, bps: nat, channels: nat, rate: nat)
    returns (events: seq<Event>, panicked: bool)
    ensures (events, panicked) == (RegularRun(wakeups, bps, channels, rate).events, RegularRun(wakeups, bps, channels, rate).panicked)
  {
    var queue := new SampleQueue();
    events, panicked := [], false;
    var i := 0;
    while i < |wakeups| && !panicked
      invariant i <= |wakeups|
      invariant RegularRun(wakeups[..i], bps, channels, rate) == RegularState(events, queue.bytes, panicked)
    {
      assert wakeups[..i + 1][..i] == wakeups[..i];
      match wakeups[i] {
        case WaitFailed =>
        case ReadFailed =>
        case ReadBytes(bytes) =>
          queue.Extend(bytes);
          var d := DrainOnce(queue, bps, channels, rate);
          match d {
            case Idle =>
            case Packet(p) => events := events + [Audio(p)];
            case Panic => panicked := true;
          }
      }
      i := i + 1;
    }
    if panicked {
      PanicIsFinal(wakeups, i, bps, channels, rate);
    } else {
      assert wakeups[..i] == wakeups;
    }
  }

  /**
   * With a nonzero sample width and channel count the regular loop never
   * panics, emits only audio, and never lets its backlog reach a whole frame:
   * the queue is empty or holds fewer than `bps * channels` bytes.
   */
  lemma {:induction false} RegularBacklog(wakeups: seq<RegularWakeup>, bps: nat, channels: nat, rate: nat)
    requires bps > 0 && channels > 0
    ensures !RegularRun(wakeups, bps, channels, rate).panicked
    ensures RegularRun(wakeups, bps, channels, rate).queue == [] || |RegularRun(wakeups, bps, channels, rate).queue| < bps * channels
    ensures forall e :: e in RegularRun(wakeups, bps, channels, rate).events ==> e.Audio? && e.payload.channels == 2
  {
    if wakeups != [] {
      var pre := RegularRun(wakeups[..|wakeups| - 1], bps, channels, rate);
      RegularBacklog(wakeups[..|wakeups| - 1], bps, channels, rate);
      var w := wakeups[|wakeups| - 1];
      if w.ReadBytes? {
        DrainStepFacts(pre.queue + w.bytes, bps, channels, rate);
        Seqs.MulMonotone(1, channels, bps);
      }
    }
  }

  // ------------------------------------------------------------ the two tiers

  /** How the audio thread's loopback ends: the stream stopped cleanly, a step failed, or the drain panicked. */
  datatype LoopEnd = Done | Failed(message: string) | Panicked

  /** A tier's events and outcome. */
  datatype TierRun = TierRun(events: seq<Event>, end: LoopEnd)

  /** What the process-loopback calls return: the step errors before and after the info event, and the loop's wakeups. */
  datatype ProcessDevice = ProcessDevice(activation: seq<Option<string>>, start: seq<Option<string>>, wakeups: seq<Wakeup>)

  /** What the regular-loopback calls return, with the device's mix format. */
  datatype RegularDevice = RegularDevice(setup: seq<Option<string>>, rate: nat, channels: nat, bits: nat,
                                         start: seq<Option<string>>, wakeups: seq<RegularWakeup>, stop: Option<string>)

  /** `run_process_loopback`. */
  function ProcessTier(targetPid: nat, ownPid: nat, dev: ProcessDevice): (r: TierRun)
    ensures !r.end.Panicked?
    ensures r.end == Done <==> FirstFailure(PROCESS_ACTIVATION, dev.activation).None? && FirstFailure(PROCESS_START, dev.start).None?
    ensures r.events == [] <==> FirstFailure(PROCESS_ACTIVATION, dev.activation).Some?
    ensures FirstFailure(PROCESS_ACTIVATION, dev.activation).Some? ==>
      r.end == Failed(FirstFailure(PROCESS_ACTIVATION, dev.activation).value)
    ensures FirstFailure(PROCESS_ACTIVATION, dev.activation).None? && FirstFailure(PROCESS_START, dev.start).Some? ==>
      r.end == Failed(FirstFailure(PROCESS_START, dev.start).value) &&
      r.events == [Info(ProcessInfo(LoopbackTarget(targetPid, ownPid).1, LoopbackTarget(targetPid, ownPid).0))]
  {
    var (pid, mode) := LoopbackTarget(targetPid, ownPid);
    match FirstFailure(PROCESS_ACTIVATION, dev.activation)
    case Some(m) => TierRun([], Failed(m))
    case None =>
      var info := [Info(ProcessInfo(mode, pid))];
      match FirstFailure(PROCESS_START, dev.start)
      case Some(m) => TierRun(info, Failed(m))
      case None => TierRun(info + ProcessLoopEvents(dev.wakeups), Done)
  }

  /** `run_regular_loopback`, with 16-bit and 32-bit formats decoded as `bits / 8` bytes per sample. */
  function RegularTier(dev: RegularDevice): TierRun
  {
    match FirstFailure(REGULAR_DEVICE, dev.setup)
    case Some(m) => TierRun([], Failed(m))
    case None =>
      var info := [Info(RegularInfo(dev.rate, dev.channels, dev.bits))];
      match FirstFailure(REGULAR_START, dev.start)
      case Some(m) => TierRun(info, Failed(m))
      case None =>
        var run := RegularRun(dev.wakeups, dev.bits / 8, dev.channels, dev.rate);
        if run.panicked then TierRun(info + run.events, Panicked)
        else match dev.stop
          case Some(e) => TierRun(info + run.events, Failed(StepMessage(REGULAR_STOP, e)))
          case None => TierRun(info + run.events, Done)
  }

  /** `run_wasapi_loopback`: process loopback, and regular loopback only when that fails. */
  function RunLoopback(targetPid: nat, ownPid: nat, process: ProcessDevice, regular: RegularDevice): TierRun
  {
    var p := ProcessTier(targetPid, ownPid, process);
    if p.end.Done? then p
    else
      var r := RegularTier(regular);
      TierRun(p.events + [Info(FALLBACK_INFO)] + r.events, r.end)
  }

  /**
   * Process loopback emits at most its own info text, first, and then only
   * audio. The info names the window's process tree as included for a window
   * share and our own process as excluded for a monitor share.
   */
  lemma ProcessTierEvents(targetPid: nat, ownPid: nat, process: ProcessDevice)
    ensures var events := ProcessTier(targetPid, ownPid, process).events;
      Info(FALLBACK_INFO) !in events &&
      (targetPid > 0 && events != [] ==> events[0] == Info(ProcessInfo(Include, targetPid))) &&
      (targetPid == 0 && events != [] ==> events[0] == Info(ProcessInfo(Exclude, ownPid))) &&
      forall k :: 1 <= k < |events| ==> events[k].Audio?
  {
    var (pid, mode) := LoopbackTarget(targetPid, ownPid);
    InfoTextsDistinct(mode, pid, 0, 0, 0);
    ProcessLoopOnlyAudio(process.wakeups);
  }

  /** Regular loopback emits at most its own info text, first, and then only audio. */
  lemma RegularTierEvents(regular: RegularDevice)
    ensures var events := RegularTier(regular).events;
      Info(FALLBACK_INFO) !in events &&
      (events != [] ==> events[0] == Info(RegularInfo(regular.rate, regular.channels, regular.bits))) &&
      forall k :: 1 <= k < |events| ==> events[k].Audio?
  {
    InfoTextsDistinct(Include, 0, regular.rate, regular.channels, regular.bits);
    RegularEventsAudio(regular.wakeups, regular.bits / 8, regular.channels, regular.rate);
  }

  /** The regular loop emits only audio. */
  lemma {:induction false} RegularEventsAudio(wakeups: seq<RegularWakeup>, bps: nat, channels: nat, rate: nat)
    ensures forall e :: e in RegularRun(wakeups, bps, channels, rate).events ==> e.Audio?
  {
    if wakeups != [] {
      RegularEventsAudio(wakeups[..|wakeups| - 1], bps, channels, rate);
    }
  }

  /**
   * The fallback: when process loopback succeeds, its events and outcome are
   * the thread's and regular loopback never runs; when it fails, whatever it
   * emitted is followed by exactly one fallback notice and then the regular
   * tier's events and outcome. Either way the notice appears once if and only
   * if process loopback failed.
   */
  lemma FallbackOnce(targetPid: nat, ownPid: nat, process: ProcessDevice, regular: RegularDevice)
    ensures var p := ProcessTier(targetPid, ownPid, process);
      var run := RunLoopback(targetPid, ownPid, process, regular);
      (p.end.Done? ==> run == p) &&
      (!p.end.Done? ==> run.events == p.events + [Info(FALLBACK_INFO)] + RegularTier(regular).events &&
                         run.end == RegularTier(regular).end) &&
      multiset(run.events)[Info(FALLBACK_INFO)] == (if p.end.Done? then 0 else 1)
  {
    ProcessTierEvents(targetPid, ownPid, process);
    RegularTierEvents(regular);
  }
}

=== FILE: audio_samples.dfy ===
/**
 * The shared audio helpers: decoding raw little-endian PCM bytes into
 * samples (`decode_samples`), the stereo downmix (`downmix_to_stereo`), and
 * the regular-loopback drain that pops whole samples off a byte deque.
 *
 * Samples are `f32` in the source. A 16-bit sample is kept here as the exact
 * rational `i16 / 32768`; a 32-bit sample keeps its four bytes, because
 * decoding IEEE floats is not modelled.
 */
module AudioSamples {
  import opened Outcomes
  import opened Seqs

  /** One decoded sample: an exact value, or the four little-endian bytes of an `f32`. */
  datatype Sample = Exact(value: real) | F32(b0: bv8, b1: bv8, b2: bv8, b3: bv8)

  /** The silent sample, also the value of a sample of an unsupported width. */
  const ZERO: Sample := Exact(0.0)
  const I16_SCALE: real := 32768.0

  /** The `i16` whose little-endian two's-complement bytes are `lo` and `hi`. */
  function I16Value(lo: int, hi: int): (v: int)
    requires 0 <= lo < 256 && 0 <= hi < 256
    ensures -32768 <= v <= 32767
    ensures v < 0 <==> hi >= 128
  {
    var u := lo + 256 * hi;
    if u >= 32768 then u - 65536 else u
  }

  /** `i16::from_le_bytes([lo, hi])`. */
  function I16FromLe(lo: bv8, hi: bv8): int
  {
    I16Value(lo as int, hi as int)
  }

  /** `i16::to_le_bytes`: the two's-complement bytes of a 16-bit value, low byte first. */
  function I16ToLe(v: int): (bytes: (int, int))
    requires -32768 <= v <= 32767
    ensures 0 <= bytes.0 < 256 && 0 <= bytes.1 < 256
  {
    var u := if v < 0 then v + 65536 else v;
    (u % 256, u / 256)
  }

  /** Encoding a 16-bit value and decoding it gives the value back. */
  lemma I16RoundTrip(v: int)
    requires -32768 <= v <= 32767
    ensures I16Value(I16ToLe(v).0, I16ToLe(v).1) == v
  {
    var u := if v < 0 then v + 65536 else v;
    assert u == u % 256 + 256 * (u / 256);
  }

  /** Decoding two bytes and encoding the value gives the bytes back. */
  lemma I16BytesRoundTrip(lo: int, hi: int)
    requires 0 <= lo < 256 && 0 <= hi < 256
    ensures I16ToLe(I16Value(lo, hi)) == (lo, hi)
  {
    var u := lo + 256 * hi;
    assert u % 256 == lo && u / 256 == hi;
  }

  /** The sample one group of `|bytes|` bytes decodes to: 4 bytes an `f32`, 2 bytes `i16 / 32768`, any other width 0. */
  function DecodeOne(bytes: seq<bv8>): Sample
  {
    if |bytes| == 4 then F32(bytes[0], bytes[1], bytes[2], bytes[3])
    else if |bytes| == 2 then Exact(I16FromLe(bytes[0], bytes[1]) as real / I16_SCALE)
    else ZERO
  }

  /** A 16-bit sample lies in [-1, 1). */
  lemma Pcm16Range(bytes: seq<bv8>)
    requires |bytes| == 2
    ensures DecodeOne(bytes).Exact? && -1.0 <= DecodeOne(bytes).value < 1.0
  {
    var v := I16FromLe(bytes[0], bytes[1]);
    assert v as real / I16_SCALE < 1.0 by {
      assert v as real <= 32767.0;
    }
  }

  /**
   * What `decode_samples(raw, bps, total)` returns: up to `total` samples of
   * `bps` bytes each, read from the front, stopping at the first sample that
   * would run past the end of `raw`.
   */
  function Decoded(raw: seq<bv8>, bps: nat, total: nat): seq<Sample>
    decreases total
  {
    if total == 0 || bps > |raw| then [] else [DecodeOne(raw[..bps])] + Decoded(raw[bps..], bps, total - 1)
  }

  /**
   * How many samples `decode_samples` produces: at most `total`, all of whose
   * bytes lie within `raw`, and fewer than `total` only when the next sample
   * would run past the end.
   */
  lemma {:induction false} DecodedLength(raw: seq<bv8>, bps: nat, total: nat)
    ensures |Decoded(raw, bps, total)| <= total
    ensures |Decoded(raw, bps, total)| * bps <= |raw|
    ensures |Decoded(raw, bps, total)| < total ==> |Decoded(raw, bps, total)| * bps + bps > |raw|
    decreases total
  {
    if total > 0 && bps <= |raw| {
      var rest := Decoded(raw[bps..], bps, total - 1);
      DecodedLength(raw[bps..], bps, total - 1);
      MulSucc(|rest|, bps);
    }
  }

  /** When `total` samples fit in `raw`, all of them are decoded. */
  lemma DecodedFull(raw: seq<bv8>, bps: nat, total: nat)
    requires total * bps <= |raw|
    ensures |Decoded(raw, bps, total)| == total
  {
    var n := |Decoded(raw, bps, total)|;
    DecodedLength(raw, bps, total);
    if n < total {
      MulSucc(n, bps);
      MulMonotone(n + 1, total, bps);
    }
  }

  /** With a positive width, `decode_samples` yields `min(total, |raw| / bps)` samples. */
  lemma DecodedCount(raw: seq<bv8>, bps: nat, total: nat)
    requires bps > 0
    ensures |Decoded(raw, bps, total)| == if total <= |raw| / bps then total else |raw| / bps
  {
    var n := |Decoded(raw, bps, total)|;
    DecodedLength(raw, bps, total);
    if n < total {
      DivUnique(n, bps, |raw|);
    } else {
      DivAtLeast(total, bps, |raw|);
    }
  }

  /** Widths other than 2 and 4 bytes decode every sample to 0. */
  lemma {:induction false} DecodedOtherWidths(raw: seq<bv8>, bps: nat, total: nat)
    requires bps != 2 && bps != 4
    ensures forall s :: s in Decoded(raw, bps, total) ==> s == ZERO
    decreases total
  {
    if total > 0 && bps <= |raw| {
      DecodedOtherWidths(raw[bps..], bps, total - 1);
    }
  }

  /** Sample `k` is decoded from bytes `k * bps` up to `(k + 1) * bps`. */
  lemma {:induction false} DecodedAt(raw: seq<bv8>, bps: nat, total: nat, k: nat, off: nat)
    requires k < |Decoded(raw, bps, total)| && off == k * bps
    ensures off + bps <= |raw|
    ensures Decoded(raw, bps, total)[k] == DecodeOne(raw[off..off + bps])
    decreases k
  {
    assert total > 0 && bps <= |raw|;
    if k > 0 {
      MulSucc(k - 1, bps);
      DecodedAt(raw[bps..], bps, total - 1, k - 1, off - bps);
      SliceOfSuffix(raw, bps, off - bps, bps);
    }
  }

  /** A slice of a suffix is a slice of the whole. */
  lemma SliceOfSuffix<T>(s: seq<T>, from: nat, i: nat, n: nat)
    requires from + i + n <= |s|
    ensures s[from..][i..i + n] == s[from + i..from + i + n]
  {
  }

  /** Every 16-bit sample lies in [-1, 1). */
  lemma {:induction false} Decoded16Range(raw: seq<bv8>, total: nat)
    ensures forall s :: s in Decoded(raw, 2, total) ==> s.Exact? && -1.0 <= s.value < 1.0
    decreases total
  {
    if total > 0 && 2 <= |raw| {
      Pcm16Range(raw[..2]);
      Decoded16Range(raw[2..], total - 1);
    }
  }

  /** Reading one more sample that fits appends it. */
  lemma {:induction false} DecodedSnoc(raw: seq<bv8>, bps: nat, k: nat, off: nat)
    requires off == k * bps && off + bps <= |raw|
    ensures Decoded(raw, bps, k + 1) == Decoded(raw, bps, k) + [DecodeOne(raw[off..off + bps])]
    decreases k
  {
    if k > 0 {
      MulSucc(k - 1, bps);
      DecodedSnoc(raw[bps..], bps, k - 1, off - bps);
      SliceOfSuffix(raw, bps, off - bps, bps);
    }
  }

  /** Once a sample does not fit, no later sample is read. */
  lemma {:induction false} DecodedStops(raw: seq<bv8>, bps: nat, k: nat, total: nat, off: nat)
    requires k <= total && off == k * bps && off + bps > |raw|
    ensures Decoded(raw, bps, total) == Decoded(raw, bps, k)
    decreases k
  {
    if k > 0 && bps <= |raw| {
      MulSucc(k - 1, bps);
      DecodedStops(raw[bps..], bps, k - 1, total - 1, off - bps);
    }
  }

  /** `decode_samples`: the source's loop, breaking at the first sample that runs past the end. */
  method DecodeSamples(raw: seq<bv8>, bytesPerSample: nat, totalSamples: nat) returns (samples: seq<Sample>)
    ensures samples == Decoded(raw, bytesPerSample, totalSamples)
  {
    samples := [];
    var i := 0;
    while i < totalSamples
      invariant i <= totalSamples
      invariant samples == Decoded(raw, bytesPerSample, i)
    {
      MulMonotone(0, i, bytesPerSample);
      var offset := i * bytesPerSample;
      if offset + bytesPerSample > |raw| {
        DecodedStops(raw, bytesPerSample, i, totalSamples, offset);
        break;
      }
      var sample;
      if bytesPerSample == 4 {
        sample := F32(raw[offset], raw[offset + 1], raw[offset + 2], raw[offset + 3]);
      } else if bytesPerSample == 2 {
        sample := Exact(I16FromLe(raw[offset], raw[offset + 1]) as real / I16_SCALE);
      } else {
        sample := ZERO;
      }
      assert sample == DecodeOne(raw[offset..offset + bytesPerSample]);
      DecodedSnoc(raw, bytesPerSample, i, offset);
      samples := samples + [sample];
      i := i + 1;
    }
  }

  // ------------------------------------------------------------ downmixing

  /** The stereo pair for frame `f`: mono is duplicated, otherwise channels 0 and 1; missing samples read as `zero`. */
  function StereoFrame<T>(all: seq<T>, channels: nat, f: int, zero: T): seq<T>
  {
    if channels == 1 then [GetOr(all, f, zero), GetOr(all, f, zero)]
    else [GetOr(all, f * channels, zero), GetOr(all, f * channels + 1, zero)]
  }

  function StereoFrames<T>(all: seq<T>, channels: nat, frames: nat, zero: T): seq<seq<T>>
  {
    seq(frames, f => StereoFrame(all, channels, f, zero))
  }

  /** What `downmix_to_stereo(all, channels, frames)` returns. */
  function Downmix<T>(all: seq<T>, channels: nat, frames: nat, zero: T): seq<T>
  {
    if channels == 2 then all else Concat(StereoFrames(all, channels, frames, zero))
  }

  lemma StereoFramesStep<T>(all: seq<T>, channels: nat, i: nat, zero: T)
    ensures Concat(StereoFrames(all, channels, i + 1, zero)) ==
      Concat(StereoFrames(all, channels, i, zero)) + StereoFrame(all, channels, i, zero)
  {
    assert StereoFrames(all, channels, i + 1, zero) == StereoFrames(all, channels, i, zero) + [StereoFrame(all, channels, i, zero)];
    ConcatSnoc(StereoFrames(all, channels, i, zero), StereoFrame(all, channels, i, zero));
  }

  /** `downmix_to_stereo`: stereo input is copied; mono and multi-channel input are rebuilt frame by frame. */
  method DownmixToStereo<T>(all: seq<T>, channels: nat, frameCount: nat, zero: T) returns (s: seq<T>)
    ensures s == Downmix(all, channels, frameCount, zero)
  {
    if channels == 2 {
      return all;
    }
    s := [];
    if channels == 1 {
      var i := 0;
      while i < frameCount
        invariant i <= frameCount
        invariant s == Concat(StereoFrames(all, channels, i, zero))
      {
        var v := GetOr(all, i, zero);
        s := s + [v];
        s := s + [v];
        StereoFramesStep(all, channels, i, zero);
        i := i + 1;
      }
    } else {
      var f := 0;
      while f < frameCount
        invariant f <= frameCount
        invariant s == Concat(StereoFrames(all, channels, f, zero))
      {
        var base := f * channels;
        var l := GetOr(all, base, zero);
        var r := GetOr(all, base + 1, zero);
        s := s + [l];
        s := s + [r];
        StereoFramesStep(all, channels, f, zero);
        f := f + 1;
      }
    }
  }

  /**
   * The downmix contract: two channels come back unchanged; otherwise the
   * output is exactly two samples per frame, mono duplicated and
   * multi-channel reduced to channels 0 and 1, with out-of-range reads 0.
   */
  lemma DownmixShape<T>(all: seq<T>, channels: nat, frames: nat, zero: T)
    ensures channels == 2 ==> Downmix(all, channels, frames, zero) == all
    ensures channels != 2 ==> |Downmix(all, channels, frames, zero)| == 2 * frames
    ensures channels == 1 ==> forall i :: 0 <= i < frames ==>
      Downmix(all, channels, frames, zero)[2 * i] == GetOr(all, i, zero) &&
      Downmix(all, channels, frames, zero)[2 * i + 1] == GetOr(all, i, zero)
    ensures channels != 1 && channels != 2 ==> forall f :: 0 <= f < frames ==>
      Downmix(all, channels, frames, zero)[2 * f] == GetOr(all, f * channels, zero) &&
      Downmix(all, channels, frames, zero)[2 * f + 1] == GetOr(all, f * channels + 1, zero)
  {
    if channels != 2 {
      var blocks := StereoFrames(all, channels, frames, zero);
      var out := Concat(blocks);
      ConcatLength(blocks, 2);
      forall f | 0 <= f < frames
        ensures out[2 * f] == blocks[f][0] && out[2 * f + 1] == blocks[f][1]
      {
        ConcatUniform(blocks, 2, f);
        assert out[2 * f..2 * f + 2][0] == out[2 * f];
        assert out[2 * f..2 * f + 2][1] == out[2 * f + 1];
      }
    }
  }

  // --------------------------------------------------- the regular-loopback drain

  /** One `capture-audio` event: interleaved samples, sample rate, channel count (always 2) and frame count. */
  datatype AudioPayload = AudioPayload(data: seq<Sample>, sampleRate: nat, channels: nat, frames: nat)

  /** What one pass of the regular-loopback loop does after a successful device read. */
  datatype Drain =
    | Idle                     // nothing to do yet: the queue is empty or holds less than a frame
    | Packet(payload: AudioPayload)
    | Panic                    // a zero sample width or channel count divides by zero, ending the audio thread

  /**
   * The queue bytes a packet consumes: every whole sample, `total_samples * bps`
   * bytes, leaving the bytes of a trailing partial sample behind.
   */
  function Consumed(len: nat, bps: nat): (n: nat)
    requires bps > 0
    ensures n <= len && len - n < bps && len - n == len % bps
  {
    (len / bps) * bps
  }

  /** The effect of one pass on the queue `bytes`: its outcome and the bytes left queued. */
  function DrainStep(bytes: seq<bv8>, bps: nat, channels: nat, rate: nat): (Drain, seq<bv8>)
  {
    if bytes == [] then (Idle, bytes)
    else if bps == 0 then (Panic, bytes)
    else
      var total := |bytes| / bps;
      if channels == 0 then (Panic, bytes)
      else
        var frames := total / channels;
        if frames == 0 then (Idle, bytes)
        else
          var stereo := Downmix(Decoded(bytes, bps, total), channels, frames, ZERO);
          (Packet(AudioPayload(stereo, rate, 2, frames)), bytes[Consumed(|bytes|, bps)..])
  }

  /** The `VecDeque<u8>` the regular loopback accumulates device bytes in. */
  class SampleQueue {
    var bytes: seq<bv8>

    constructor ()
      ensures bytes == []
    {
      bytes := [];
    }

    /** `read_from_device_to_deque`: the device's bytes are appended at the back. */
    method Extend(data: seq<bv8>)
      modifies this
      ensures bytes == old(bytes) + data
    {
      bytes := bytes + data;
    }

    /** `VecDeque::pop_front`. */
    method PopFront() returns (b: Option<bv8>)
      modifies this
      ensures old(bytes) == [] ==> b == None && bytes == []
      ensures old(bytes) != [] ==> b == Some(old(bytes)[0]) && bytes == old(bytes)[1..]
    {
      if bytes == [] {
        b := None;
      } else {
        b := Some(bytes[0]);
        bytes := bytes[1..];
      }
    }
  }

  /** Pops one sample of `bps` bytes off the front of the queue and decodes it. */
  method PopSample(q: SampleQueue, bps: nat) returns (sample: Sample)
    requires bps <= |q.bytes|
    modifies q
    ensures sample == DecodeOne(old(q.bytes)[..bps]) && q.bytes == old(q.bytes)[bps..]
  {
    ghost var before := q.bytes;
    if bps == 4 {
      var b0 := q.PopFront();
      var b1 := q.PopFront();
      var b2 := q.PopFront();
      var b3 := q.PopFront();
      sample := F32(b0.value, b1.value, b2.value, b3.value);
      assert before[..4] == [b0.value, b1.value, b2.value, b3.value];
    } else if bps == 2 {
      var b0 := q.PopFront();
      var b1 := q.PopFront();
      sample := Exact(I16FromLe(b0.value, b1.value) as real / I16_SCALE);
      assert before[..2] == [b0.value, b1.value];
    } else {
      var j := 0;
      while j < bps
        invariant j <= bps && q.bytes == before[j..]
      {
        var _ := q.PopFront();
        j := j + 1;
      }
      sample := ZERO;
    }
  }

  /**
   * The decode loop of the drain: `total` times, pop a whole sample off the
   * front if one is queued, decode it and keep it.
   */
  method PopSamples(q: SampleQueue, bps: nat, total: nat) returns (all: seq<Sample>)
    requires bps > 0 && total * bps <= |q.bytes|
    modifies q
    ensures all == Decoded(old(q.bytes), bps, total) && q.bytes == old(q.bytes)[total * bps..]
  {
    ghost var snapshot := q.bytes;
    all := [];
    var k := 0;
    ghost var consumed: nat := 0;
    while k < total
      invariant k <= total && consumed == k * bps
      invariant consumed <= |snapshot| && q.bytes == snapshot[consumed..]
      invariant all == Decoded(snapshot, bps, k)
    {
      MulSucc(k, bps);
      MulMonotone(k + 1, total, bps);
      if |q.bytes| >= bps {
        var sample := PopSample(q, bps);
        SliceOfSuffix(snapshot, consumed, 0, bps);
        DecodedSnoc(snapshot, bps, k, consumed);
        all := all + [sample];
        consumed := consumed + bps;
      }
      k := k + 1;
    }
  }

  /**
   * One pass of the regular-loopback loop after a successful read: compute
   * the sample and frame counts from the queue length, pop every whole sample
   * off the front, decode it, and downmix.
   */
  method DrainOnce(q: SampleQueue, bytesPerSample: nat, channels: nat, rate: nat) returns (r: Drain)
    modifies q
    ensures (r, q.bytes) == DrainStep(old(q.bytes), bytesPerSample, channels, rate)
  {
    if q.bytes == [] {
      return Idle;
    }
    var totalBytes := |q.bytes|;
    if bytesPerSample == 0 {
      return Panic;
    }
    var totalSamples := totalBytes / bytesPerSample;
    if channels == 0 {
      return Panic;
    }
    var frameCount := totalSamples / channels;
    if frameCount == 0 {
      return Idle;
    }
    var _ := Consumed(totalBytes, bytesPerSample);
    var all := PopSamples(q, bytesPerSample, totalSamples);
    var stereo := DownmixToStereo(all, channels, frameCount, ZERO);
    r := Packet(AudioPayload(stereo, rate, 2, frameCount));
  }

  /**
   * What a pass guarantees: a packet consumes every whole sample and leaves
   * only the trailing partial sample queued; an idle pass leaves the queue as it was and
   * happens only when the queue holds less than one frame; in both cases less
   * than a whole frame stays queued. A packet carries `total_samples /
   * channels` frames at 2 channels, decoded exactly as `decode_samples` decodes
   * the queued bytes.
   */
  lemma DrainStepFacts(bytes: seq<bv8>, bps: nat, channels: nat, rate: nat)
    ensures DrainStep(bytes, bps, channels, rate).0.Panic? <==> bytes != [] && (bps == 0 || channels == 0)
    ensures DrainStep(bytes, bps, channels, rate).0.Idle? ==>
      DrainStep(bytes, bps, channels, rate).1 == bytes && (bytes == [] || |bytes| < bps * channels)
    ensures DrainStep(bytes, bps, channels, rate).0.Packet? ==>
      var left := DrainStep(bytes, bps, channels, rate).1;
      var p := DrainStep(bytes, bps, channels, rate).0.payload;
      |left| == |bytes| % bps && left == bytes[|bytes| - |left|..] &&
      p.channels == 2 && p.sampleRate == rate && p.frames == (|bytes| / bps) / channels && p.frames > 0 &&
      p.data == Downmix(Decoded(bytes, bps, |bytes| / bps), channels, p.frames, ZERO)
  {
    if bytes != [] && bps > 0 && channels > 0 {
      var total := |bytes| / bps;
      var _ := Consumed(|bytes|, bps);
      if total / channels == 0 {
        IdleBelowFrame(|bytes|, bps, channels);
      }
    }
  }

  lemma IdleBelowFrame(len: nat, bps: nat, channels: nat)
    requires bps > 0 && channels > 0 && (len / bps) / channels == 0
    ensures len < bps * channels
  {
    var total := len / bps;
    assert total < channels;
    assert len == total * bps + len % bps;
    MulMonotone(total + 1, channels, bps);
    assert (total + 1) * bps <= channels * bps;
  }

  /** A packet's samples are every whole sample in the queue: all of them decode. */
  lemma PacketDecodesAll(bytes: seq<bv8>, bps: nat)
    requires bps > 0
    ensures |Decoded(bytes, bps, |bytes| / bps)| == |bytes| / bps
  {
    var _ := Consumed(|bytes|, bps);
    DecodedFull(bytes, bps, |bytes| / bps);
  }
}

=== FILE: frame_pipeline.dfy ===
/**
 * The integer parts of the video frame pipeline: the frame-rate clamp, the
 * per-handler throttle (`CaptureHandler::new` / `on_frame_arrived`) and the
 * two BGRA -> RGB repacking loops (stride-aware for live frames, packed for
 * thumbnails). JPEG compression is a foreign library and is passed in as a
 * function.
 */
module FramePipeline {
  import opened Outcomes
  import opened Seqs

  const MIN_FPS: nat := 1
  const MAX_FPS: nat := 60
  const NANOS_PER_MILLI: nat := 1_000_000
  /** The JPEG quality of live frames. */
  const FRAME_JPEG_QUALITY: nat := 90

  /**
   * JPEG compression of a packed RGB image with 2x2 chroma subsampling
   * (`turbojpeg::compress`): pixels, width, height and quality in, the JPEG
   * bytes or the library's error out. A foreign library, so it stays opaque.
   */
  type Compressor = (seq<bv8>, nat, nat, nat) -> Result<seq<bv8>, string>

  /** `fps.max(1).min(60)`. */
  function ClampFps(fps: nat): (r: nat)
    ensures MIN_FPS <= r <= MAX_FPS
    ensures MIN_FPS <= fps <= MAX_FPS ==> r == fps
    ensures fps < MIN_FPS ==> r == MIN_FPS
    ensures fps > MAX_FPS ==> r == MAX_FPS
  {
    if fps < MIN_FPS then MIN_FPS else if fps > MAX_FPS then MAX_FPS else fps
  }

  /** The minimum spacing between processed frames, `1000 / clamped_fps` (integer division). */
  function FpsIntervalMs(fps: nat): (r: nat)
    ensures 16 <= r <= 1000
    ensures r * ClampFps(fps) <= 1000 < (r + 1) * ClampFps(fps)
  {
    var f := ClampFps(fps);
    IntervalBounds(f);
    1000 / f
  }

  lemma IntervalBounds(f: nat)
    requires MIN_FPS <= f <= MAX_FPS
    ensures 16 <= 1000 / f <= 1000
    ensures (1000 / f) * f <= 1000 < (1000 / f + 1) * f
  {
    var q, r := 1000 / f, 1000 % f;
    assert q * f + r == 1000 && 0 <= r < f;
    if q < 16 {
      MulMonotone(q, 15, f);
    }
  }

  /** `now.duration_since(last).as_millis()`: saturating at zero and truncated to whole milliseconds (times in ns). */
  function ElapsedMs(last: nat, now: nat): nat
  {
    if now >= last then (now - last) / NANOS_PER_MILLI else 0
  }

  /** The throttle lets a frame through when at least the interval has elapsed since the last processed one. */
  predicate Due(last: nat, intervalMs: nat, now: nat)
  {
    ElapsedMs(last, now) >= intervalMs
  }

  /** A frame passes exactly when `intervalMs` whole milliseconds lie between the two instants. */
  lemma DueMeansSpaced(last: nat, intervalMs: nat, now: nat)
    requires intervalMs > 0
    ensures Due(last, intervalMs, now) <==> now >= last + intervalMs * NANOS_PER_MILLI
  {
    if now >= last {
      var d := now - last;
      var q := d / NANOS_PER_MILLI;
      assert ElapsedMs(last, now) == q;
      assert d == q * NANOS_PER_MILLI + d % NANOS_PER_MILLI;
      if q >= intervalMs {
        MulMonotone(intervalMs, q, NANOS_PER_MILLI);
      } else {
        MulMonotone(q + 1, intervalMs, NANOS_PER_MILLI);
      }
    }
  }

  /** The arrival instants, among `arrivals`, of the frames a handler processes when its last processed frame was at `last`. */
  function Processed(last: nat, intervalMs: nat, arrivals: seq<nat>): seq<nat>
    decreases |arrivals|
  {
    if arrivals == [] then []
    else if Due(last, intervalMs, arrivals[0]) then [arrivals[0]] + Processed(arrivals[0], intervalMs, arrivals[1..])
    else Processed(last, intervalMs, arrivals[1..])
  }

  /** Processed frames are never closer together than the interval, and the first is an interval after `last`. */
  lemma {:induction false} ProcessedSpacing(last: nat, intervalMs: nat, arrivals: seq<nat>)
    requires intervalMs > 0
    ensures |Processed(last, intervalMs, arrivals)| <= |arrivals|
    ensures |Processed(last, intervalMs, arrivals)| > 0 ==>
      Processed(last, intervalMs, arrivals)[0] >= last + intervalMs * NANOS_PER_MILLI
    ensures forall k :: 0 < k < |Processed(last, intervalMs, arrivals)| ==>
      Processed(last, intervalMs, arrivals)[k] >= Processed(last, intervalMs, arrivals)[k - 1] + intervalMs * NANOS_PER_MILLI
    decreases |arrivals|
  {
    if arrivals != [] {
      var now := arrivals[0];
      if Due(last, intervalMs, now) {
        DueMeansSpaced(last, intervalMs, now);
        ProcessedSpacing(now, intervalMs, arrivals[1..]);
        var rest := Processed(now, intervalMs, arrivals[1..]);
        var p := Processed(last, intervalMs, arrivals);
        assert p == [now] + rest;
        forall k | 0 < k < |p|
          ensures p[k] >= p[k - 1] + intervalMs * NANOS_PER_MILLI
        {
          assert p[k] == rest[k - 1];
          if k > 1 {
            assert p[k - 1] == rest[k - 2];
          }
        }
      } else {
        ProcessedSpacing(last, intervalMs, arrivals[1..]);
      }
    }
  }

  // ---------------------------------------------------------------- repacking

  /** The three RGB bytes of the BGRA pixel at byte `off`, or nothing when `off + 2` is past the end. */
  function PixelRgb(raw: seq<bv8>, off: int): seq<bv8>
  {
    if 0 <= off && off + 2 < |raw| then [raw[off + 2], raw[off + 1], raw[off]] else []
  }

  /** What each of the `n` pixels of a row starting at byte `base` contributes; pixels are 4 bytes apart. */
  function RowPixels(raw: seq<bv8>, base: int, n: nat): seq<seq<bv8>>
  {
    seq(n, i => PixelRgb(raw, base + 4 * i))
  }

  /** The output for a row of `n` pixels starting at byte `base`. */
  function RowRgb(raw: seq<bv8>, base: int, n: nat): seq<bv8>
  {
    Concat(RowPixels(raw, base, n))
  }

  /** The outputs of the first `rows` rows of `width` pixels, rows `stride` bytes apart. */
  function FrameRows(raw: seq<bv8>, stride: nat, width: nat, rows: nat): seq<seq<bv8>>
  {
    seq(rows, y => RowRgb(raw, y * stride, width))
  }

  /** The output for the first `rows` rows, in row-major order. */
  function FrameRgb(raw: seq<bv8>, stride: nat, width: nat, rows: nat): seq<bv8>
  {
    Concat(FrameRows(raw, stride, width, rows))
  }

  /** The row stride the live pipeline uses: the buffer length divided by the height (`width * 4` when the height is 0). */
  function Stride(len: nat, width: nat, height: nat): nat
  {
    if height > 0 then len / height else width * 4
  }

  /** The three output bytes of pixel (y, x) in an RGB buffer `width` pixels wide, or nothing when out of range. */
  function RgbPixelAt(out: seq<bv8>, width: nat, y: nat, x: nat): seq<bv8>
  {
    RgbAt(out, 3 * (y * width + x))
  }

  /** The three bytes of `out` from byte `k` on, or nothing when out of range. */
  function RgbAt(out: seq<bv8>, k: int): seq<bv8>
  {
    if 0 <= k && k + 3 <= |out| then out[k..k + 3] else []
  }

  /** Stride-aware BGRA -> RGB conversion of a live frame (`on_frame_arrived`, the pixel loop). */
  method RepackStrided(raw: seq<bv8>, width: nat, height: nat) returns (rgb: seq<bv8>)
    ensures rgb == FrameRgb(raw, Stride(|raw|, width, height), width, height)
    ensures |rgb| <= 3 * (width * height)
    ensures height == 0 ==> rgb == []
  {
    var stride: nat := if height > 0 then |raw| / height else width * 4;
    rgb := [];
    var y: nat, rowBase: nat := 0, 0;
    while y < height
      invariant y <= height
      invariant rowBase == y * stride
      invariant rgb == FrameRgb(raw, stride, width, y)
    {
      var x := 0;
      while x < width
        invariant 0 <= x <= width
        invariant rgb == FrameRgb(raw, stride, width, y) + RowRgb(raw, rowBase, x)
      {
        var offset := rowBase + 4 * x;
        if offset + 2 < |raw| {
          rgb := rgb + [raw[offset + 2], raw[offset + 1], raw[offset]];
        }
        RowStep(raw, rowBase, x);
        x := x + 1;
      }
      FrameStep(raw, stride, width, y);
      MulSucc(y, stride);
      y, rowBase := y + 1, rowBase + stride;
    }
    FrameRgbLength(raw, stride, width, height);
  }

  /** Packed BGRA -> RGB conversion of a thumbnail bitmap (`bgra_to_jpeg_base64`, the pixel loop). */
  method RepackPacked(bgra: seq<bv8>, width: nat, height: nat) returns (rgb: seq<bv8>)
    ensures rgb == RowRgb(bgra, 0, width * height)
    ensures |bgra| >= 4 * (width * height) ==> |rgb| == 3 * (width * height)
  {
    var pixelCount := width * height;
    rgb := [];
    var i := 0;
    while i < pixelCount
      invariant 0 <= i <= pixelCount
      invariant rgb == RowRgb(bgra, 0, i)
    {
      var off := 4 * i;
      if off + 2 < |bgra| {
        rgb := rgb + [bgra[off + 2], bgra[off + 1], bgra[off]];
      }
      RowStep(bgra, 0, i);
      i := i + 1;
    }
    if |bgra| >= 4 * pixelCount {
      RowComplete(bgra, 0, pixelCount);
    }
  }

  // Arithmetic and sequence facts about the repacking, kept in small lemmas.

  lemma PixelIndex(width: nat, y: nat, x: nat)
    ensures 0 <= (3 * width) * y
    ensures 3 * (y * width + x) == (3 * width) * y + 3 * x
    ensures (3 * width) * y == 3 * (width * y)
  {
  }

  lemma StrideCoversRow(len: nat, w: nat, h: nat)
    requires h > 0 && len >= 4 * (w * h)
    ensures len / h >= 4 * w
    ensures (h - 1) * (len / h) + len / h <= len
  {
    var s, m := len / h, len % h;
    assert s * h + m == len && m < h;
    if s < 4 * w {
      MulMonotone(s + 1, 4 * w, h);
    }
    MulSucc(h - 1, s);
  }

  lemma RowStep(raw: seq<bv8>, base: int, n: nat)
    ensures RowRgb(raw, base, n + 1) == RowRgb(raw, base, n) + PixelRgb(raw, base + 4 * n)
  {
    assert RowPixels(raw, base, n + 1) == RowPixels(raw, base, n) + [PixelRgb(raw, base + 4 * n)];
    ConcatSnoc(RowPixels(raw, base, n), PixelRgb(raw, base + 4 * n));
  }

  /** One more row appends that row's bytes to the frame. */
  lemma FrameStep(raw: seq<bv8>, stride: nat, width: nat, rows: nat)
    ensures FrameRgb(raw, stride, width, rows + 1) == FrameRgb(raw, stride, width, rows) + RowRgb(raw, rows * stride, width)
  {
    assert FrameRows(raw, stride, width, rows + 1) == FrameRows(raw, stride, width, rows) + [RowRgb(raw, rows * stride, width)];
    ConcatSnoc(FrameRows(raw, stride, width, rows), RowRgb(raw, rows * stride, width));
  }

  /** A row yields at most three bytes per pixel. */
  lemma RowLength(raw: seq<bv8>, base: int, n: nat)
    ensures |RowRgb(raw, base, n)| <= 3 * n
  {
    ConcatAtMost(RowPixels(raw, base, n), 3);
  }

  /** A frame yields at most three bytes per pixel. */
  lemma FrameRgbLength(raw: seq<bv8>, stride: nat, width: nat, rows: nat)
    ensures |FrameRgb(raw, stride, width, rows)| <= 3 * (width * rows)
  {
    var blocks := FrameRows(raw, stride, width, rows);
    forall j | 0 <= j < rows
      ensures |blocks[j]| <= 3 * width
    {
      RowLength(raw, j * stride, width);
    }
    ConcatAtMost(blocks, 3 * width);
    PixelIndex(width, rows, 0);
  }

  /** A row whose bytes all lie in the buffer yields three bytes per pixel, channels reversed. */
  lemma RowComplete(raw: seq<bv8>, base: int, n: nat)
    requires 0 <= base && base + 4 * n <= |raw|
    ensures |RowRgb(raw, base, n)| == 3 * n
    ensures forall i :: 0 <= i < n ==>
      RowRgb(raw, base, n)[3 * i..3 * i + 3] == [raw[base + 4 * i + 2], raw[base + 4 * i + 1], raw[base + 4 * i]]
  {
    var blocks := RowPixels(raw, base, n);
    assert forall j :: 0 <= j < n ==> |blocks[j]| == 3;
    ConcatLength(blocks, 3);
    forall i | 0 <= i < n
      ensures RowRgb(raw, base, n)[3 * i..3 * i + 3] == [raw[base + 4 * i + 2], raw[base + 4 * i + 1], raw[base + 4 * i]]
    {
      ConcatUniform(blocks, 3, i);
    }
  }

  /** When the last row lies in the buffer, every row yields three bytes per pixel. */
  lemma FrameRowsComplete(raw: seq<bv8>, stride: nat, width: nat, rows: nat)
    requires rows > 0 ==> (rows - 1) * stride + 4 * width <= |raw|
    ensures forall j :: 0 <= j < rows ==> |FrameRows(raw, stride, width, rows)[j]| == 3 * width
  {
    forall j | 0 <= j < rows
      ensures |FrameRows(raw, stride, width, rows)[j]| == 3 * width
    {
      MulMonotone(j, rows - 1, stride);
      RowComplete(raw, j * stride, width);
    }
  }

  /** When the last row lies in the buffer, pixel (y, x) is the reversed BGR at `y * stride + 4 * x`. */
  lemma FramePixel(raw: seq<bv8>, stride: nat, width: nat, rows: nat, y: nat, x: nat)
    requires y < rows && x < width && (rows - 1) * stride + 4 * width <= |raw|
    ensures |PixelRgb(raw, y * stride + 4 * x)| == 3
    ensures RgbPixelAt(FrameRgb(raw, stride, width, rows), width, y, x) == PixelRgb(raw, y * stride + 4 * x)
  {
    var frame := FrameRgb(raw, stride, width, rows);
    var start := (3 * width) * y;
    var row := RowRgb(raw, y * stride, width);
    FrameRow(raw, stride, width, rows, y);
    MulMonotone(y, rows - 1, stride);
    RowComplete(raw, y * stride, width);
    PixelIndex(width, y, x);
    PixelInFrame(raw, frame, row, start, x, 3 * (y * width + x), y * stride + 4 * x);
  }

  /** A pixel's bytes inside a row that `frame` holds from `start` on sit at `start + 3 * x` in `frame`. */
  lemma PixelInFrame(raw: seq<bv8>, frame: seq<bv8>, row: seq<bv8>, start: nat, x: nat, k: int, off: int)
    requires start + |row| <= |frame| && frame[start..start + |row|] == row
    requires 0 <= off && off + 2 < |raw| && 3 * x + 3 <= |row|
    requires row[3 * x..3 * x + 3] == [raw[off + 2], raw[off + 1], raw[off]]
    requires k == start + 3 * x
    ensures |PixelRgb(raw, off)| == 3 && RgbAt(frame, k) == PixelRgb(raw, off)
  {
    SliceWithin(frame, row, start, 3 * x, 3);
  }

  /** When the last row lies in the buffer, row y occupies bytes `3 * width * y` up to `3 * width * (y + 1)`. */
  lemma FrameRow(raw: seq<bv8>, stride: nat, width: nat, rows: nat, y: nat)
    requires y < rows && (rows - 1) * stride + 4 * width <= |raw|
    ensures (3 * width) * y + 3 * width <= |FrameRgb(raw, stride, width, rows)|
    ensures FrameRgb(raw, stride, width, rows)[(3 * width) * y..(3 * width) * y + 3 * width] == RowRgb(raw, y * stride, width)
  {
    FrameRowsComplete(raw, stride, width, rows);
    ConcatUniform(FrameRows(raw, stride, width, rows), 3 * width, y);
  }

  /**
   * When the last row's pixels lie in the buffer, the frame is three bytes per
   * pixel and pixel (y, x) is the reversed BGR of the bytes at `y * stride + 4 * x`.
   */
  lemma FrameComplete(raw: seq<bv8>, stride: nat, width: nat, rows: nat)
    requires rows > 0 ==> (rows - 1) * stride + 4 * width <= |raw|
    ensures |FrameRgb(raw, stride, width, rows)| == 3 * (width * rows)
    ensures forall y, x :: 0 <= y < rows && 0 <= x < width ==>
      |PixelRgb(raw, y * stride + 4 * x)| == 3 &&
      RgbPixelAt(FrameRgb(raw, stride, width, rows), width, y, x) == PixelRgb(raw, y * stride + 4 * x)
  {
    FrameRowsComplete(raw, stride, width, rows);
    ConcatLength(FrameRows(raw, stride, width, rows), 3 * width);
    PixelIndex(width, rows, 0);
    forall y, x | 0 <= y < rows && 0 <= x < width
      ensures |PixelRgb(raw, y * stride + 4 * x)| == 3 &&
        RgbPixelAt(FrameRgb(raw, stride, width, rows), width, y, x) == PixelRgb(raw, y * stride + 4 * x)
    {
      FramePixel(raw, stride, width, rows, y, x);
    }
  }

  /**
   * The live-frame guarantee: with a positive height and a buffer of at least
   * `4 * width * height` bytes, the stride covers a row, every pixel is read,
   * the output is exactly `3 * width * height` bytes, and pixel (y, x) is the
   * reversed BGR of the bytes at `y * stride + 4 * x`, where
   * `stride = |raw| / height`.
   */
  lemma LiveFrameComplete(raw: seq<bv8>, width: nat, height: nat)
    requires height > 0 && |raw| >= 4 * (width * height)
    ensures Stride(|raw|, width, height) >= 4 * width
    ensures |FrameRgb(raw, Stride(|raw|, width, height), width, height)| == 3 * (width * height)
    ensures forall y, x :: 0 <= y < height && 0 <= x < width ==>
      var s := Stride(|raw|, width, height);
      |PixelRgb(raw, y * s + 4 * x)| == 3 &&
      RgbPixelAt(FrameRgb(raw, s, width, height), width, y, x) == PixelRgb(raw, y * s + 4 * x)
  {
    StrideCoversRow(|raw|, width, height);
    FrameComplete(raw, |raw| / height, width, height);
  }

  // ------------------------------------------------------------- the handler

  /** One emitted `capture-frame` event (the wall-clock timestamp is not modelled). */
  datatype FramePayload = FramePayload(jpeg: seq<bv8>, width: nat, height: nat)

  /** What one call of `on_frame_arrived` does with a frame. */
  datatype FrameOutcome =
    | Dropped                       // throttled: returned Ok(()) without work
    | Emitted(payload: FramePayload) // converted, compressed and emitted
    | Failed(message: string)       // the buffer or the compressor failed; returned to the capture library

  /** The per-session frame handler; `lastFrameTime` is updated in place. */
  class CaptureHandler {
    const fpsIntervalMs: nat
    var lastFrameTime: nat

    /** `CaptureHandler::new`: clamps the requested rate and starts the clock at `now`. */
    constructor (fps: nat, now: nat)
      ensures fpsIntervalMs == FpsIntervalMs(fps) && lastFrameTime == now
      ensures 16 <= fpsIntervalMs <= 1000
    {
      fpsIntervalMs := FpsIntervalMs(fps);
      lastFrameTime := now;
    }

    /**
     * `on_frame_arrived`: a frame that is not due changes nothing; a due frame
     * moves the clock to `now` before any work that can fail, then is repacked
     * with the stride-aware loop, compressed and emitted.
     */
    method OnFrameArrived(now: nat, width: nat, height: nat, buffer: Result<seq<bv8>, string>,
                          compress: Compressor)
      returns (r: FrameOutcome)
      modifies this
      ensures !Due(old(lastFrameTime), fpsIntervalMs, now) ==> r == Dropped && lastFrameTime == old(lastFrameTime)
      ensures Due(old(lastFrameTime), fpsIntervalMs, now) ==> lastFrameTime == now
      ensures Due(old(lastFrameTime), fpsIntervalMs, now) ==>
        match buffer
        case Err(e) => r == Failed(e)
        case Ok(raw) =>
          var rgb := FrameRgb(raw, Stride(|raw|, width, height), width, height);
          match compress(rgb, width, height, FRAME_JPEG_QUALITY)
          case Err(e) => r == Failed(e)
          case Ok(jpeg) => r == Emitted(FramePayload(jpeg, width, height))
    {
      var elapsed := if now >= lastFrameTime then (now - lastFrameTime) / NANOS_PER_MILLI else 0;
      if elapsed < fpsIntervalMs {
        return Dropped;
      }
      lastFrameTime := now;
      if buffer.Err? {
        return Failed(buffer.error);
      }
      var rgb := RepackStrided(buffer.value, width, height);
      var jpeg := compress(rgb, width, height, FRAME_JPEG_QUALITY);
      if jpeg.Err? {
        return Failed(jpeg.error);
      }
      r := Emitted(FramePayload(jpeg.value, width, height));
    }
  }
}

=== FILE: outcomes.dfy ===
/** Success/failure and optional values used throughout the capture model. */
module Outcomes {

  /** An optional value (Rust's `Option`). */
  datatype Option<+T> = None | Some(value: T)

  /** A value or an error (Rust's `Result`). */
  datatype Result<+T, +E> = Ok(value: T) | Err(error: E)

  /** The outcome of an operation that returns `Result<(), String>`. */
  datatype Outcome = Pass | Fail(message: string)
}

=== FILE: seqs.dfy ===
/**
 * Generic facts about sequences of blocks and the few multiplication facts
 * the index arithmetic of the pixel and sample loops needs.
 */
module Seqs {
  /** `s[i]`, or `default` when `i` is out of range (`slice::get(i).copied().unwrap_or(default)`). */
  function GetOr<T>(s: seq<T>, i: int, default: T): T
  {
    if 0 <= i < |s| then s[i] else default
  }

  /** The blocks of `blocks` one after another, in order. */
  function Concat<T>(blocks: seq<seq<T>>): seq<T>
  {
    if blocks == [] then [] else Concat(blocks[..|blocks| - 1]) + blocks[|blocks| - 1]
  }

  lemma MulMonotone(a: nat, b: nat, w: nat)
    requires a <= b
    ensures 0 <= a * w <= b * w
  {
  }

  lemma MulSucc(y: nat, s: nat)
    ensures (y + 1) * s == y * s + s
  {
  }

  lemma MulBelow(l: nat, i: nat, n: nat)
    requires i < n
    ensures l * i + l <= l * n
  {
    MulMonotone(i + 1, n, l);
  }

  /** A smaller factor gives a product at least one `b` smaller. */
  lemma MulOrder(x: nat, y: nat, b: nat)
    ensures x < y ==> x * b + b <= y * b
  {
    if x < y {
      MulSucc(x, b);
      MulMonotone(x + 1, y, b);
    }
  }

  /** `n / b` is the one quotient whose multiple of `b` is within `b` below `n`. */
  lemma DivUnique(q: nat, b: nat, n: nat)
    requires b > 0 && q * b <= n < q * b + b
    ensures n / b == q
  {
    MulOrder(q, n / b, b);
    MulOrder(n / b, q, b);
  }

  /** A multiple of `b` that fits in `n` has a quotient at most `n / b`. */
  lemma DivAtLeast(q: nat, b: nat, n: nat)
    requires b > 0 && q * b <= n
    ensures q <= n / b
  {
    MulOrder(n / b, q, b);
  }

  lemma {:induction false} ConcatAtMost<T>(blocks: seq<seq<T>>, l: nat)
    requires forall j :: 0 <= j < |blocks| ==> |blocks[j]| <= l
    ensures |Concat(blocks)| <= l * |blocks|
  {
    if blocks != [] {
      var n := |blocks| - 1;
      ConcatAtMost(blocks[..n], l);
      MulSucc(n, l);
    }
  }

  lemma {:induction false} ConcatLength<T>(blocks: seq<seq<T>>, l: nat)
    requires forall j :: 0 <= j < |blocks| ==> |blocks[j]| == l
    ensures |Concat(blocks)| == l * |blocks|
  {
    if blocks != [] {
      var n := |blocks| - 1;
      ConcatLength(blocks[..n], l);
      MulSucc(n, l);
    }
  }

  /** When every block has length `l`, block `i` sits at `l * i` in the concatenation. */
  lemma {:induction false} ConcatUniform<T>(blocks: seq<seq<T>>, l: nat, i: nat)
    requires forall j :: 0 <= j < |blocks| ==> |blocks[j]| == l
    requires i < |blocks|
    ensures l * i + l <= |Concat(blocks)|
    ensures Concat(blocks)[l * i..l * i + l] == blocks[i]
  {
    var n := |blocks| - 1;
    var init := blocks[..n];
    ConcatLength(blocks, l);
    ConcatLength(init, l);
    MulBelow(l, i, |blocks|);
    var c := Concat(init);
    assert Concat(blocks) == c + blocks[n];
    if i < n {
      ConcatUniform(init, l, i);
      assert (c + blocks[n])[l * i..l * i + l] == c[l * i..l * i + l];
    } else {
      assert (c + blocks[n])[|c|..|c| + l] == blocks[n];
    }
  }

  /** Where `frame` holds `row` from `start` on, a slice of `row` is the same slice of `frame`, shifted. */
  lemma SliceWithin<T>(frame: seq<T>, row: seq<T>, start: nat, j: nat, l: nat)
    requires start + |row| <= |frame| && frame[start..start + |row|] == row && j + l <= |row|
    ensures frame[start + j..start + j + l] == row[j..j + l]
  {
    var inFrame, inRow := frame[start + j..start + j + l], row[j..j + l];
    forall i | 0 <= i < l
      ensures inFrame[i] == inRow[i]
    {
      assert frame[start..start + |row|][j + i] == row[j + i];
    }
  }

  lemma ConcatSnoc<T>(blocks: seq<seq<T>>, b: seq<T>)
    ensures Concat(blocks + [b]) == Concat(blocks) + b
  {
    assert (blocks + [b])[..|blocks|] == blocks;
  }
}

=== FILE: session.dfy ===
/**
 * The capture session controller: the global `CAPTURE_RUNNING` flag and the
 * three slots holding the video control, the audio stop flag and the audio
 * thread handle, as `start_capture`, `switch_capture_target`, `stop_capture`
 * and the capture handler's `on_closed` update them.
 *
 * Threads, stop flags and video controls are tokens minted from a counter.
 * The controller's effects on the outside world are recorded in a log:
 * video sessions started and stopped, audio threads spawned, stop flags set,
 * threads joined. A thread is live from its spawn until it is joined.
 *
 * Starting the video is `start_wgc_capture` (TargetIds.StartWgcCapture), a
 * function of the id and the desktop; the operations here take its result,
 * `video`, which they consult only once the `running` check has passed.
 */
module Session {
  import opened Outcomes
  import opened TargetIds
  import FramePipeline

  /** One effect of the controller on the outside world. */
  datatype SessionEvent =
    | VideoStarted(control: nat, target: TargetRef, fps: nat)
    | VideoStopped(control: nat)
    | Spawned(thread: nat, flag: nat, targetPid: nat)
    | Signalled(flag: nat)
    | Joined(thread: nat)

  /** The audio threads spawned and not yet joined. */
  function Live(log: seq<SessionEvent>): set<nat>
  {
    if log == [] then {}
    else
      var prev := Live(log[..|log| - 1]);
      match log[|log| - 1]
      case Spawned(t, _, _) => prev + {t}
      case Joined(t) => prev - {t}
      case _ => prev
  }

  /** How one more event changes the live threads. */
  lemma LiveSnoc(log: seq<SessionEvent>, e: SessionEvent)
    ensures e.Spawned? ==> Live(log + [e]) == Live(log) + {e.thread}
    ensures e.Joined? ==> Live(log + [e]) == Live(log) - {e.thread}
    ensures !e.Spawned? && !e.Joined? ==> Live(log + [e]) == Live(log)
  {
    assert (log + [e])[..|log|] == log;
  }

  /** The record of stopping the video control `c`, if there was one to stop. */
  function StopEvents(c: Option<nat>): seq<SessionEvent>
  {
    if c.Some? then [VideoStopped(c.value)] else []
  }

  function SignalEvents(flag: Option<nat>): seq<SessionEvent>
  {
    if flag.Some? then [Signalled(flag.value)] else []
  }

  function JoinEvents(thread: Option<nat>): seq<SessionEvent>
  {
    if thread.Some? then [Joined(thread.value)] else []
  }

  /** Events other than spawns and joins leave the live threads alone. */
  lemma LiveAppend(log: seq<SessionEvent>, events: seq<SessionEvent>)
    requires |events| <= 1 && forall e :: e in events ==> !e.Spawned? && !e.Joined?
    ensures Live(log + events) == Live(log)
  {
    if events == [] {
      assert log + events == log;
    } else {
      LiveSnoc(log, events[0]);
      assert events == [events[0]];
    }
  }

  /** The record of starting a video session with control `c` for `video`, if it resolved. */
  function StartEvents(video: Result<TargetRef, string>, c: nat, fps: nat): seq<SessionEvent>
  {
    if video.Ok? then [VideoStarted(c, video.value, FramePipeline.ClampFps(fps))] else []
  }

  function AsSet(slot: Option<nat>): set<nat>
  {
    if slot.Some? then {slot.value} else {}
  }

  /**
   * `ControlWrapper`: the WGC session's control, kept in a slot so that it can
   * be stopped once; `inner` is the control, or None once it has been taken.
   */
  class ControlWrapper {
    var inner: Option<nat>

    constructor (control: nat)
      ensures inner == Some(control)
    {
      inner := Some(control);
    }

    /**
     * `stop_capture`: take the control and stop it. `stopError` is the error the
     * WGC stop reports, if it fails. A second call finds nothing to stop.
     */
    method StopCapture(stopError: Option<string>) returns (r: Outcome, stopped: Option<nat>)
      modifies this
      ensures inner == None && stopped == old(inner)
      ensures r == (if old(inner).Some? && stopError.Some? then Fail(stopError.value) else Pass)
    {
      stopped := inner;
      inner := None;
      if stopped.Some? && stopError.Some? {
        return Fail(stopError.value), stopped;
      }
      r := Pass;
    }
  }

  /** The capture controller's globals. */
  class CaptureSession {
    var running: bool
    var control: Option<ControlWrapper>
    var audioStopFlag: Option<nat>
    var audioThread: Option<nat>
    var nextToken: nat
    var log: seq<SessionEvent>

    /**
     * The controller's invariant: the stop flag and the thread are stored and
     * taken together, every live audio thread is the one in the slot (so at
     * most one is live, and it can always be stopped), and the slot's thread
     * was minted before the counter's current value.
     */
    predicate Valid()
      reads this
    {
      (audioStopFlag.Some? <==> audioThread.Some?) && Live(log) <= AsSet(audioThread) &&
      (audioThread.Some? ==> audioThread.value < nextToken)
    }

    function Controls(): set<object>
      reads this
    {
      if control.Some? then {control.value} else {}
    }

    /** The video control a stop would stop: the one in the slot's wrapper, if not yet taken. */
    function VideoControl(): Option<nat>
      reads this, Controls()
    {
      if control.Some? then control.value.inner else None
    }

    constructor ()
      ensures Valid() && !running && control == None && audioStopFlag == None && audioThread == None && log == []
    {
      running, control, audioStopFlag, audioThread := false, None, None, None;
      nextToken, log := 0, [];
    }

    method Fresh() returns (token: nat)
      modifies this
      ensures token == old(nextToken) && nextToken == token + 1
      ensures running == old(running) && control == old(control) && audioStopFlag == old(audioStopFlag)
      ensures audioThread == old(audioThread) && log == old(log)
    {
      token := nextToken;
      nextToken := nextToken + 1;
    }

    /** Store a new stop flag, spawn the loopback thread for `targetPid`, and store its handle. */
    method SpawnAudio(targetPid: nat)
      requires audioStopFlag == None && audioThread == None && Live(log) == {}
      modifies this
      ensures Valid() && audioStopFlag.Some? && audioThread.Some? && Live(log) == {audioThread.value}
      ensures log == old(log) + [Spawned(audioThread.value, audioStopFlag.value, targetPid)]
      ensures audioStopFlag.value == old(nextToken) && audioThread.value == old(nextToken) + 1 && nextToken == old(nextToken) + 2
      ensures running == old(running) && control == old(control)
    {
      var flag := Fresh();
      audioStopFlag := Some(flag);
      var thread := Fresh();
      LiveSnoc(log, Spawned(thread, flag, targetPid));
      log := log + [Spawned(thread, flag, targetPid)];
      audioThread := Some(thread);
    }

    /**
     * Spawn the loopback thread for `targetPid` and store it and its new stop
     * flag over whatever the slots held, without stopping what they held.
     */
    method SpawnOver(targetPid: nat)
      requires Valid()
      modifies this
      ensures audioStopFlag.Some? && audioThread.Some? && audioThread.value < nextToken
      ensures audioThread.value !in Live(old(log)) && Live(log) == Live(old(log)) + {audioThread.value}
      ensures log == old(log) + [Spawned(audioThread.value, audioStopFlag.value, targetPid)]
      ensures running == old(running) && control == old(control)
    {
      var flag := Fresh();
      audioStopFlag := Some(flag);
      var thread := Fresh();
      LiveSnoc(log, Spawned(thread, flag, targetPid));
      log := log + [Spawned(thread, flag, targetPid)];
      audioThread := Some(thread);
    }

    /**
     * Take the audio stop flag and set it, then take the thread handle and
     * join it. Only the thread in the slot stops; under the invariant it is
     * the only live one.
     */
    method StopAudio()
      modifies this
      ensures audioStopFlag == None && audioThread == None
      ensures Live(log) == Live(old(log)) - AsSet(old(audioThread))
      ensures old(Valid()) ==> Valid() && Live(log) == {}
      ensures log == old(log) + SignalEvents(old(audioStopFlag)) + JoinEvents(old(audioThread))
      ensures running == old(running) && control == old(control) && nextToken == old(nextToken)
    {
      ghost var signalled := log + SignalEvents(audioStopFlag);
      LiveAppend(log, SignalEvents(audioStopFlag));
      if audioStopFlag.Some? {
        log := log + [Signalled(audioStopFlag.value)];
        audioStopFlag := None;
      }
      assert log == signalled;
      if audioThread.Some? {
        LiveSnoc(log, Joined(audioThread.value));
        log := log + [Joined(audioThread.value)];
        audioThread := None;
      } else {
        assert log + JoinEvents(None) == log;
      }
    }

    /**
     * Take the video control out of its slot and stop it, recording the stop.
     * The slot is empty afterwards whether or not the stop succeeds.
     */
    method StopVideo(stopError: Option<string>) returns (r: Outcome)
      modifies this, Controls()
      ensures control == None && log == old(log) + StopEvents(old(VideoControl()))
      ensures Live(log) == Live(old(log)) && (old(Valid()) ==> Valid())
      ensures r == (if old(VideoControl()).Some? && stopError.Some? then Fail(stopError.value) else Pass)
      ensures running == old(running) && audioStopFlag == old(audioStopFlag) && audioThread == old(audioThread)
      ensures nextToken == old(nextToken)
    {
      ghost var before := VideoControl();
      var stopped := None;
      r := Pass;
      if control.Some? {
        var wrapper := control.value;
        control := None;
        r, stopped := wrapper.StopCapture(stopError);
      }
      assert control == None && Controls() == {};
      assert running == old(running) && audioStopFlag == old(audioStopFlag) && audioThread == old(audioThread);
      assert nextToken == old(nextToken) && log == old(log);
      assert stopped == before;
      LiveAppend(log, StopEvents(stopped));
      log := log + StopEvents(stopped);
    }

    /** Start the WGC session's handler and store its control. */
    method StoreVideo(target: TargetRef, fps: nat)
      requires Valid()
      modifies this
      ensures Valid() && control.Some? && fresh(control.value) && control.value.inner == Some(old(nextToken))
      ensures log == old(log) + [VideoStarted(old(nextToken), target, FramePipeline.ClampFps(fps))]
      ensures running == old(running) && audioStopFlag == old(audioStopFlag) && audioThread == old(audioThread)
      ensures nextToken == old(nextToken) + 1
    {
      var token := Fresh();
      var wrapper := new ControlWrapper(token);
      LiveSnoc(log, VideoStarted(token, target, FramePipeline.ClampFps(fps)));
      log := log + [VideoStarted(token, target, FramePipeline.ClampFps(fps))];
      control := Some(wrapper);
    }

    /**
     * `start_capture`, as the source writes it. It refuses while running;
     * otherwise it starts the video, sets `running` and, with audio, stores a
     * new stop flag and thread over whatever the slots held. A thread left in
     * the slots by a session that closed on its own stays live.
     */
    method StartAsWritten(video: Result<TargetRef, string>, fps: nat, captureAudio: bool, targetPid: nat)
      returns (r: Outcome)
      requires Valid()
      modifies this
      ensures old(running) ==> r == Fail("Capture already running") && unchanged(this)
      ensures !old(running) && video.Err? ==> r == Fail(video.error) && unchanged(this)
      ensures !old(running) && video.Ok? ==>
        r == Pass && running && control.Some? && fresh(control.value) && control.value.inner == Some(old(nextToken))
      ensures !old(running) && video.Ok? && !captureAudio ==>
        log == old(log) + [VideoStarted(old(nextToken), video.value, FramePipeline.ClampFps(fps))] &&
        audioStopFlag == old(audioStopFlag) && audioThread == old(audioThread) && Valid()
      ensures !old(running) && video.Ok? && captureAudio ==>
        audioThread.Some? && audioStopFlag.Some? && audioThread.value < nextToken &&
        audioThread.value !in Live(old(log)) && Live(log) == Live(old(log)) + {audioThread.value} &&
        log == old(log) + [VideoStarted(old(nextToken), video.value, FramePipeline.ClampFps(fps)),
                           Spawned(audioThread.value, audioStopFlag.value, targetPid)]
    {
      if running {
        return Fail("Capture already running");
      }
      if video.Err? {
        return Fail(video.error);
      }
      StoreVideo(video.value, fps);
      running := true;
      if captureAudio {
        SpawnOver(targetPid);
      }
      r := Pass;
    }

    /**
     * `start_capture`, corrected: before storing a new audio thread it sets
     * the stop flag of, and joins, any thread a closed session left in the
     * slots, as `switch_capture_target` does. Everything else is as written.
     */
    method Start(video: Result<TargetRef, string>, fps: nat, captureAudio: bool, targetPid: nat)
      returns (r: Outcome)
      requires Valid()
      modifies this
      ensures Valid()
      ensures old(running) ==> r == Fail("Capture already running") && unchanged(this)
      ensures !old(running) && video.Err? ==> r == Fail(video.error) && unchanged(this)
      ensures !old(running) && video.Ok? ==>
        r == Pass && running && control.Some? && fresh(control.value) && control.value.inner == Some(old(nextToken))
      ensures !old(running) && video.Ok? && !captureAudio ==>
        log == old(log) + [VideoStarted(old(nextToken), video.value, FramePipeline.ClampFps(fps))] &&
        audioStopFlag == old(audioStopFlag) && audioThread == old(audioThread)
      ensures !old(running) && video.Ok? && captureAudio ==>
        audioThread.Some? && audioStopFlag.Some? && Live(log) == {audioThread.value} &&
        log == old(log) + [VideoStarted(old(nextToken), video.value, FramePipeline.ClampFps(fps))]
               + SignalEvents(old(audioStopFlag)) + JoinEvents(old(audioThread))
               + [Spawned(audioThread.value, audioStopFlag.value, targetPid)]
    {
      if running {
        return Fail("Capture already running");
      }
      if video.Err? {
        return Fail(video.error);
      }
      StoreVideo(video.value, fps);
      running := true;
      if captureAudio {
        StopAudio();
        SpawnAudio(targetPid);
      }
      r := Pass;
    }

    /**
     * `switch_capture_target`. It refuses unless running. It stops the old
     * video first and returns that error with the audio untouched; it then
     * sets the old stop flag, joins the old thread and spawns one for
     * `targetPid` before starting the new video, so a target that fails to
     * start leaves `running` set, no video control, and the new thread live.
     */
    method Switch(video: Result<TargetRef, string>, fps: nat, targetPid: nat, stopError: Option<string>)
      returns (r: Outcome)
      requires Valid()
      modifies this, Controls()
      ensures Valid()
      ensures !old(running) ==> r == Fail("No capture running") && unchanged(this)
      ensures old(running) ==> running
      ensures old(running) && old(VideoControl()).Some? && stopError.Some? ==>
        r == Fail(stopError.value) && control == None && log == old(log) + [VideoStopped(old(VideoControl()).value)] &&
        audioStopFlag == old(audioStopFlag) && audioThread == old(audioThread)
      ensures old(running) && !(old(VideoControl()).Some? && stopError.Some?) ==>
        r == (if video.Ok? then Pass else Fail(video.error)) && (control.Some? <==> video.Ok?) &&
        audioStopFlag.Some? && audioThread.Some? && Live(log) == {audioThread.value} &&
        log == old(log) + StopEvents(old(VideoControl())) + SignalEvents(old(audioStopFlag)) + JoinEvents(old(audioThread))
               + [Spawned(audioThread.value, audioStopFlag.value, targetPid)]
               + StartEvents(video, audioThread.value + 1, fps)
    {
      if !running {
        return Fail("No capture running");
      }
      r := StopVideo(stopError);
      if r.Fail? {
        return;
      }
      r := Restart(video, fps, targetPid);
    }

    /**
     * The second half of `switch_capture_target`, once the old video is
     * stopped: set the old stop flag, join the old thread, spawn one for
     * `targetPid`, then start the new video, whose error is returned.
     */
    method Restart(video: Result<TargetRef, string>, fps: nat, targetPid: nat) returns (r: Outcome)
      requires Valid() && control == None
      modifies this
      ensures Valid() && running == old(running)
      ensures r == (if video.Ok? then Pass else Fail(video.error)) && (control.Some? <==> video.Ok?)
      ensures audioStopFlag.Some? && audioThread.Some? && Live(log) == {audioThread.value}
      ensures audioThread.value == old(nextToken) + 1
      ensures log == old(log) + SignalEvents(old(audioStopFlag)) + JoinEvents(old(audioThread))
                     + [Spawned(audioThread.value, audioStopFlag.value, targetPid)]
                     + StartEvents(video, audioThread.value + 1, fps)
    {
      StopAudio();
      SpawnAudio(targetPid);
      ghost var spawned := log;
      ghost var started := StartEvents(video, audioThread.value + 1, fps);
      if video.Err? {
        assert spawned + started == spawned;
        return Fail(video.error);
      }
      StoreVideo(video.value, fps);
      assert log == spawned + started;
      r := Pass;
    }

    /**
     * `stop_capture`: clear `running`, set the audio stop flag and join the
     * thread, then stop the video. Every slot is empty afterwards, even when
     * the video stop fails, whose error is returned.
     */
    method Stop(stopError: Option<string>) returns (r: Outcome)
      modifies this, Controls()
      ensures !running && control == None && audioStopFlag == None && audioThread == None
      ensures Live(log) == Live(old(log)) - AsSet(old(audioThread))
      ensures old(Valid()) ==> Valid() && Live(log) == {}
      ensures r == (if old(VideoControl()).Some? && stopError.Some? then Fail(stopError.value) else Pass)
      ensures log == old(log) + SignalEvents(old(audioStopFlag)) + JoinEvents(old(audioThread)) + StopEvents(old(VideoControl()))
    {
      running := false;
      StopAudio();
      r := StopVideo(stopError);
    }

    /** The capture handler's `on_closed`: the captured item went away; only `running` is cleared. */
    method OnClosed()
      modifies this
      ensures !running && control == old(control) && audioStopFlag == old(audioStopFlag)
      ensures audioThread == old(audioThread) && log == old(log) && nextToken == old(nextToken)
    {
      running := false;
    }
  }

  /**
   * A session whose captured monitor closes and which is then started again
   * with audio, as written: two audio threads are live afterwards, the first
   * no longer held by any slot, and a stop then ends only the second.
   */
  method OrphanedAudioThread() returns (live: nat, held: nat, firstLiveAfterStop: bool)
    ensures live == 2 && held == 1
    ensures firstLiveAfterStop
  {
    var video := StartWgcCapture(MonitorId(0), Ok([]), Ok(1), None);
    PickerIdsStart(0, 0, [], 1);
    var s := new CaptureSession();
    var _ := s.StartAsWritten(video, 30, true, 0);
    var first := s.audioThread.value;
    s.OnClosed();
    var _ := s.StartAsWritten(video, 30, true, 0);
    var second := s.audioThread.value;
    assert Live(s.log) == {first, second} && first != second;
    live := |Live(s.log)|;
    held := |AsSet(s.audioThread)|;
    var _ := s.Stop(None);
    firstLiveAfterStop := first in Live(s.log);
  }

  /**
   * The same sequence with the corrected start: one audio thread is live, the
   * one in the slot, and a stop leaves none.
   */
  method NoOrphanAfterRestart() returns (live: nat, held: nat, liveAfterStop: nat)
    ensures live == 1 && held == 1 && liveAfterStop == 0
  {
    var video := StartWgcCapture(MonitorId(0), Ok([]), Ok(1), None);
    PickerIdsStart(0, 0, [], 1);
    var s := new CaptureSession();
    var _ := s.Start(video, 30, true, 0);
    s.OnClosed();
    var _ := s.Start(video, 30, true, 0);
    live := |Live(s.log)|;
    held := |AsSet(s.audioThread)|;
    var _ := s.Stop(None);
    liveAfterStop := |Live(s.log)|;
  }
}

=== FILE: target_ids.dfy ===
/**
 * Capture-target ids: `window:<hwnd>` and `monitor:<index>`, as the picker
 * formats them and as `start_wgc_capture` splits, parses and resolves them
 * against a fresh enumeration before starting a capture session.
 */
module TargetIds {
  import opened Outcomes
  import opened Text

  /** What an id names: a window by its handle (an `isize`) or a monitor by its position. */
  datatype TargetRef = WindowRef(hwnd: int) | MonitorRef(index: nat)

  const WINDOW_PREFIX: string := "window"
  const MONITOR_PREFIX: string := "monitor"

  /** The id the picker gives a window. */
  function WindowId(hwnd: int): string
  {
    WINDOW_PREFIX + ":" + IntToString(hwnd)
  }

  /** The id the picker gives the monitor at position `i`. */
  function MonitorId(i: nat): string
  {
    MONITOR_PREFIX + ":" + NatToString(i)
  }

  /** `s.splitn(2, ':')` when it yields two parts: the text before the first ':' and everything after it. */
  function SplitOnce(s: string): (r: Option<(string, string)>)
    ensures r.None? <==> ':' !in s
    ensures r.Some? ==> s == r.value.0 + [':'] + r.value.1 && ':' !in r.value.0
  {
    if s == [] then None
    else if s[0] == ':' then Some(([], s[1..]))
    else match SplitOnce(s[1..])
      case None => None
      case Some((a, b)) =>
        assert s == [s[0]] + s[1..];
        Some(([s[0]] + a, b))
  }

  /**
   * The parsing half of `start_wgc_capture`: an id without ':' is invalid; the
   * text before the first ':' selects the kind; the rest must parse as an
   * `isize` handle or a `usize` index.
   */
  function ParseTargetId(id: string): (r: Result<TargetRef, string>)
    ensures r.Ok? && r.value.WindowRef? ==> ISIZE_MIN <= r.value.hwnd <= ISIZE_MAX
    ensures r.Ok? && r.value.MonitorRef? ==> r.value.index <= USIZE_MAX
    ensures r.Ok? && r.value.WindowRef? ==>
      SplitOnce(id).Some? && SplitOnce(id).value.0 == WINDOW_PREFIX && ParseIsize(SplitOnce(id).value.1) == Ok(r.value.hwnd)
    ensures r.Ok? && r.value.MonitorRef? ==>
      SplitOnce(id).Some? && SplitOnce(id).value.0 == MONITOR_PREFIX && ParseUsize(SplitOnce(id).value.1) == Ok(r.value.index)
  {
    match SplitOnce(id)
    case None => Err("Invalid target_id: " + id)
    case Some((kind, value)) =>
      if kind == WINDOW_PREFIX then
        match ParseIsize(value)
        case Err(e) => Err("Invalid HWND: " + ErrorText(e))
        case Ok(h) => Ok(WindowRef(h))
      else if kind == MONITOR_PREFIX then
        match ParseUsize(value)
        case Err(e) => Err("Invalid index: " + ErrorText(e))
        case Ok(i) => Ok(MonitorRef(i))
      else Err("Unknown target type: " + kind)
  }

  /** A prefix free of ':' is split off at the ':' that follows it. */
  lemma {:induction false} SplitAfterPrefix(prefix: string, rest: string)
    requires ':' !in prefix
    ensures SplitOnce(prefix + ":" + rest) == Some((prefix, rest))
  {
    var s := prefix + ":" + rest;
    if prefix != [] {
      assert s[0] == prefix[0] && s[1..] == prefix[1..] + ":" + rest;
      SplitAfterPrefix(prefix[1..], rest);
      assert [prefix[0]] + prefix[1..] == prefix;
    }
  }

  /** Every window id the picker can produce parses back to its handle. */
  lemma WindowIdRoundTrip(hwnd: int)
    requires ISIZE_MIN <= hwnd <= ISIZE_MAX
    ensures ParseTargetId(WindowId(hwnd)) == Ok(WindowRef(hwnd))
  {
    SplitAfterPrefix(WINDOW_PREFIX, IntToString(hwnd));
    IsizeRoundTrip(hwnd);
  }

  /** Every monitor id the picker can produce parses back to its position. */
  lemma MonitorIdRoundTrip(i: nat)
    requires i <= USIZE_MAX
    ensures ParseTargetId(MonitorId(i)) == Ok(MonitorRef(i))
  {
    SplitAfterPrefix(MONITOR_PREFIX, NatToString(i));
    UsizeRoundTrip(i);
  }

  /**
   * Every outcome of a parse, in the order the source checks: no ':' at all,
   * then an unknown kind, then a value that does not parse, each with its
   * message; a value that parses gives the kind's target holding it.
   */
  lemma ParseCases(id: string)
    ensures ':' !in id ==> ParseTargetId(id) == Err("Invalid target_id: " + id)
    ensures ':' in id ==>
      var (kind, value) := SplitOnce(id).value;
      (kind != WINDOW_PREFIX && kind != MONITOR_PREFIX ==> ParseTargetId(id) == Err("Unknown target type: " + kind)) &&
      (kind == WINDOW_PREFIX && ParseIsize(value).Err? ==> ParseTargetId(id) == Err("Invalid HWND: " + ErrorText(ParseIsize(value).error))) &&
      (kind == WINDOW_PREFIX && ParseIsize(value).Ok? ==> ParseTargetId(id) == Ok(WindowRef(ParseIsize(value).value))) &&
      (kind == MONITOR_PREFIX && ParseUsize(value).Err? ==> ParseTargetId(id) == Err("Invalid index: " + ErrorText(ParseUsize(value).error))) &&
      (kind == MONITOR_PREFIX && ParseUsize(value).Ok? ==> ParseTargetId(id) == Ok(MonitorRef(ParseUsize(value).value)))
  {
  }

  /** Leading zeros are accepted: "window:007" names the window with handle 7. */
  lemma LeadingZeros()
    ensures ParseTargetId(WINDOW_PREFIX + ":007") == Ok(WindowRef(7))
  {
    SplitAfterPrefix(WINDOW_PREFIX, "007");
    assert WINDOW_PREFIX + ":" + "007" == WINDOW_PREFIX + ":007";
    assert "007"[..2] == "00" && "00"[..1] == "0" && "0"[..0] == [];
    assert AllDigits("007") && DecimalValue("007") == 7;
    assert ParseIsize("007") == Ok(7);
  }

  /** A '+' sign is accepted on an index: "monitor:+1" names monitor 1. */
  lemma PlusSign()
    ensures ParseTargetId(MONITOR_PREFIX + ":+1") == Ok(MonitorRef(1))
  {
    SplitAfterPrefix(MONITOR_PREFIX, "+1");
    assert MONITOR_PREFIX + ":" + "+1" == MONITOR_PREFIX + ":+1";
    assert Unsigned("+1", false) == "1" && "1"[..0] == [];
    assert AllDigits("1") && DecimalValue("1") == 1;
    assert ParseUsize("+1") == Ok(1);
  }

  /** A letter after the digits is reported as an invalid digit: "window:12a" names no window. */
  lemma TrailingLetter()
    ensures ParseTargetId(WINDOW_PREFIX + ":12a") == Err("Invalid HWND: " + ErrorText(InvalidDigit))
  {
    SplitAfterPrefix(WINDOW_PREFIX, "12a");
    assert WINDOW_PREFIX + ":" + "12a" == WINDOW_PREFIX + ":12a";
    assert "12a"[..2] == "12" && "12"[..1] == "1" && "1"[..0] == [];
    assert AllDigits("12") && DecimalValue("12") == 12;
    ScanStopsAtNonDigit("12a", 2, false, ISIZE_MIN, ISIZE_MAX);
    assert ParseIsize("12a") == Err(InvalidDigit);
  }

  /** A monitor id with a sign never names a monitor: the index is unsigned. */
  lemma NegativeMonitorIndex(rest: string)
    requires |rest| >= 1
    ensures ParseTargetId(MONITOR_PREFIX + ":-" + rest) == Err("Invalid index: " + ErrorText(InvalidDigit))
  {
    SplitAfterPrefix(MONITOR_PREFIX, "-" + rest);
    assert MONITOR_PREFIX + ":" + ("-" + rest) == MONITOR_PREFIX + ":-" + rest;
    UsizeRejectsMinus("-" + rest);
  }

  /**
   * The resolution half of `start_wgc_capture`, run after a successful parse:
   * enumerate the windows (their handles) or the monitors (their count) and
   * find the target. An enumeration that fails reports "enumerate: ...".
   */
  function Resolve(t: TargetRef, windows: Result<seq<int>, string>, monitorCount: Result<nat, string>): (r: Result<TargetRef, string>)
    ensures r.Ok? ==> r.value == t
    ensures r.Ok? && t.WindowRef? ==> windows.Ok? && t.hwnd in windows.value
    ensures r.Ok? && t.MonitorRef? ==> monitorCount.Ok? && t.index < monitorCount.value
    ensures t.WindowRef? && windows.Ok? && t.hwnd !in windows.value ==> r == Err("Window not found")
    ensures t.MonitorRef? && monitorCount.Ok? && t.index >= monitorCount.value ==> r == Err("Monitor not found")
  {
    match t
    case WindowRef(h) =>
      (match windows
       case Err(e) => Err("enumerate: " + e)
       case Ok(hwnds) => if h in hwnds then Ok(t) else Err("Window not found"))
    case MonitorRef(i) =>
      (match monitorCount
       case Err(e) => Err("enumerate: " + e)
       case Ok(n) => if i < n then Ok(t) else Err("Monitor not found"))
  }

  /**
   * `start_wgc_capture` up to the session start: parse, resolve, and start the
   * capture, whose failure `startError` reports as "start capture: ...". The
   * result is the target the new session captures.
   */
  function StartWgcCapture(id: string, windows: Result<seq<int>, string>, monitorCount: Result<nat, string>,
                           startError: Option<string>): (r: Result<TargetRef, string>)
    ensures r.Ok? <==> ParseTargetId(id).Ok? && Resolve(ParseTargetId(id).value, windows, monitorCount).Ok? && startError.None?
    ensures r.Ok? ==> r == ParseTargetId(id)
  {
    match ParseTargetId(id)
    case Err(e) => Err(e)
    case Ok(t) =>
      match Resolve(t, windows, monitorCount)
      case Err(e) => Err(e)
      case Ok(_) =>
        match startError
        case Some(e) => Err("start capture: " + e)
        case None => Ok(t)
  }

  /** A picker id for a window still present, or a monitor still attached, starts exactly that target. */
  lemma PickerIdsStart(hwnd: int, i: nat, hwnds: seq<int>, count: nat)
    requires ISIZE_MIN <= hwnd <= ISIZE_MAX && i <= USIZE_MAX
    ensures hwnd in hwnds ==> StartWgcCapture(WindowId(hwnd), Ok(hwnds), Ok(count), None) == Ok(WindowRef(hwnd))
    ensures i < count ==> StartWgcCapture(MonitorId(i), Ok(hwnds), Ok(count), None) == Ok(MonitorRef(i))
    ensures hwnd !in hwnds ==> StartWgcCapture(WindowId(hwnd), Ok(hwnds), Ok(count), None) == Err("Window not found")
    ensures i >= count ==> StartWgcCapture(MonitorId(i), Ok(hwnds), Ok(count), None) == Err("Monitor not found")
  {
    WindowIdRoundTrip(hwnd);
    MonitorIdRoundTrip(i);
  }
}

=== FILE: target_picker.dfy ===
/**
 * The capture picker: which top-level windows are offered
 * (`is_capturable_window` and the filters of `enumerate_capture_targets`),
 * and the targets listed for windows and monitors. The Win32 queries are
 * reduced to the values they return; a failed window or monitor enumeration
 * lists nothing of that kind.
 */
module TargetPicker {
  import opened Outcomes
  import opened Text
  import opened TargetIds
  import opened Thumbnail

  /** Processes whose windows are never offered, in lower case. */
  const BACKGROUND_PROCESSES: seq<string> := ["textinputhost.exe", "searchhost.exe", "shellexperiencehost.exe",
    "startmenuexperiencehost.exe", "lockapp.exe", "widgets.exe", "gamebar.exe", "gamebarftserver.exe", "msteams.exe"]

  const WS_EX_TOOLWINDOW: bv32 := 0x0000_0080
  const WS_EX_APPWINDOW: bv32 := 0x0004_0000

  /** The desktop's own window title. */
  const DESKTOP_TITLE: string := "Program Manager"
  /** The application's own process name, matched in lower case anywhere in a process name. */
  const OWN_APP: string := "nexus"

  /** A tool window is not user-facing unless it also asks for a taskbar button. */
  predicate ToolWindowOnly(exStyle: bv32)
  {
    exStyle & WS_EX_TOOLWINDOW != 0 && exStyle & WS_EX_APPWINDOW == 0
  }

  /**
   * `is_capturable_window`: `visible` is `IsWindowVisible`, `cloaked` the
   * `DWMWA_CLOAKED` value when the query succeeds, `exStyle` the extended style.
   */
  predicate IsCapturableWindow(processName: string, visible: bool, cloaked: Option<nat>, exStyle: bv32)
  {
    if ToLower(processName) in BACKGROUND_PROCESSES then false
    else if !visible then false
    else if cloaked.Some? && cloaked.value != 0 then false
    else if ToolWindowOnly(exStyle) then false
    else true
  }

  /** What the enumeration and the Win32 queries report about one top-level window. */
  datatype WindowInfo = WindowInfo(hwnd: int, title: Option<string>, processName: Option<string>, visible: bool,
                                   cloaked: Option<nat>, exStyle: bv32, pid: nat, thumb: WindowThumb)

  /** What the enumeration reports about one monitor. */
  datatype MonitorInfo = MonitorInfo(deviceName: Option<string>, width: Option<nat>, height: Option<nat>)

  /** One entry of the picker (`CaptureTarget`). */
  datatype CaptureTarget = CaptureTarget(id: string, title: string, targetType: string, processName: string,
                                         processId: nat, width: nat, height: nat, thumbnail: string)

  function OrEmpty(s: Option<string>): string
  {
    if s.Some? then s.value else ""
  }

  function OrZero(n: Option<nat>): nat
  {
    if n.Some? then n.value else 0
  }

  /** The checks `enumerate_capture_targets` applies to a window, in order: title, own app, then `is_capturable_window`. */
  predicate Listed(w: WindowInfo)
  {
    var title, name := OrEmpty(w.title), OrEmpty(w.processName);
    if title == [] || title == DESKTOP_TITLE then false
    else if Contains(ToLower(name), OWN_APP) then false
    else IsCapturableWindow(name, w.visible, w.cloaked, w.exStyle)
  }

  function WindowTarget(w: WindowInfo): CaptureTarget
  {
    CaptureTarget(WindowId(w.hwnd), OrEmpty(w.title), "window", OrEmpty(w.processName), w.pid,
                  w.thumb.width, w.thumb.height, w.thumb.data)
  }

  /** The name shown for monitor `i`: its device name, or "ディスプレイ <i+1>" when that cannot be read. */
  function MonitorName(i: nat, m: MonitorInfo): string
  {
    if m.deviceName.Some? then m.deviceName.value else "ディスプレイ " + NatToString(i + 1)
  }

  /** The entry for monitor `i`; `thumbOf` is `capture_monitor_thumbnail` applied to the monitor's name. */
  function MonitorTarget(i: nat, m: MonitorInfo, thumbOf: string -> string): CaptureTarget
  {
    var name := MonitorName(i, m);
    CaptureTarget(MonitorId(i), "画面 " + NatToString(i + 1) + " (" + name + ")", "monitor", "", 0,
                  OrZero(m.width), OrZero(m.height), thumbOf(name))
  }

  /** The window entries, in enumeration order. */
  function WindowTargets(ws: seq<WindowInfo>): seq<CaptureTarget>
  {
    if ws == [] then []
    else WindowTargets(ws[..|ws| - 1]) + (if Listed(ws[|ws| - 1]) then [WindowTarget(ws[|ws| - 1])] else [])
  }

  /** The monitor entries, one per monitor, in enumeration order. */
  function MonitorTargets(ms: seq<MonitorInfo>, thumbOf: string -> string): seq<CaptureTarget>
  {
    seq(|ms|, i requires 0 <= i < |ms| => MonitorTarget(i, ms[i], thumbOf))
  }

  function OrNothing<T>(xs: Option<seq<T>>): seq<T>
  {
    if xs.Some? then xs.value else []
  }

  /** The window loop of `enumerate_capture_targets`. */
  method ListWindows(ws: seq<WindowInfo>) returns (targets: seq<CaptureTarget>)
    ensures targets == WindowTargets(ws)
  {
    targets := [];
    var k := 0;
    while k < |ws|
      invariant k <= |ws| && targets == WindowTargets(ws[..k])
    {
      assert ws[..k + 1][..k] == ws[..k];
      var w := ws[k];
      k := k + 1;
      var title := OrEmpty(w.title);
      if title == [] || title == DESKTOP_TITLE {
        continue;
      }
      var processName := OrEmpty(w.processName);
      if Contains(ToLower(processName), OWN_APP) {
        continue;
      }
      if !IsCapturableWindow(processName, w.visible, w.cloaked, w.exStyle) {
        continue;
      }
      targets := targets + [WindowTarget(w)];
    }
    assert ws[..k] == ws;
  }

  /** The monitor loop of `enumerate_capture_targets`. */
  method ListMonitors(ms: seq<MonitorInfo>, thumbOf: string -> string) returns (targets: seq<CaptureTarget>)
    ensures targets == MonitorTargets(ms, thumbOf)
  {
    targets := [];
    var i := 0;
    while i < |ms|
      invariant i <= |ms| && targets == MonitorTargets(ms[..i], thumbOf)
    {
      assert MonitorTargets(ms[..i + 1], thumbOf) == MonitorTargets(ms[..i], thumbOf) + [MonitorTarget(i, ms[i], thumbOf)];
      targets := targets + [MonitorTarget(i, ms[i], thumbOf)];
      i := i + 1;
    }
    assert ms[..i] == ms;
  }

  /** `enumerate_capture_targets`: the offered windows, then every monitor. */
  method EnumerateCaptureTargets(windows: Option<seq<WindowInfo>>, monitors: Option<seq<MonitorInfo>>,
                                 thumbOf: string -> string) returns (targets: seq<CaptureTarget>)
    ensures targets == WindowTargets(OrNothing(windows)) + MonitorTargets(OrNothing(monitors), thumbOf)
  {
    targets := [];
    if windows.Some? {
      targets := ListWindows(windows.value);
    }
    if monitors.Some? {
      var monitorTargets := ListMonitors(monitors.value, thumbOf);
      targets := targets + monitorTargets;
    }
  }

  /** The process-name checks ignore case: a name and its lower-cased form are treated alike. */
  lemma NameChecksIgnoreCase(w: WindowInfo)
    ensures Listed(w) == Listed(w.(processName := Some(ToLower(OrEmpty(w.processName)))))
  {
    ToLowerIdempotent(OrEmpty(w.processName));
  }

  /** Every background process, in any case, is refused even when visible, uncloaked and an ordinary window. */
  lemma BackgroundRefused(name: string)
    requires ToLower(name) in BACKGROUND_PROCESSES
    ensures !IsCapturableWindow(name, true, None, 0)
  {
  }

  /** The denylist is written in lower case, so every entry can match. */
  lemma DenylistLowerCase()
    ensures forall p :: p in BACKGROUND_PROCESSES ==> ToLower(p) == p
  {
    forall p | p in BACKGROUND_PROCESSES
      ensures ToLower(p) == p
    {
      forall i | 0 <= i < |p|
        ensures LowerChar(p[i]) == p[i]
      {
      }
    }
  }

  /** Every window entry comes from an enumerated window that passes every check. */
  lemma {:induction false} WindowTargetsSound(ws: seq<WindowInfo>)
    ensures forall t :: t in WindowTargets(ws) ==> exists w :: w in ws && Listed(w) && t == WindowTarget(w)
  {
    if ws != [] {
      WindowTargetsSound(ws[..|ws| - 1]);
      forall t | t in WindowTargets(ws)
        ensures exists w :: w in ws && Listed(w) && t == WindowTarget(w)
      {
        if t in WindowTargets(ws[..|ws| - 1]) {
          var w :| w in ws[..|ws| - 1] && Listed(w) && t == WindowTarget(w);
          assert w in ws;
        } else {
          assert ws[|ws| - 1] in ws;
        }
      }
    }
  }

  /** Every enumerated window that passes every check gets an entry. */
  lemma {:induction false} WindowTargetsComplete(ws: seq<WindowInfo>)
    ensures forall w :: w in ws && Listed(w) ==> WindowTarget(w) in WindowTargets(ws)
  {
    if ws != [] {
      WindowTargetsComplete(ws[..|ws| - 1]);
      forall w | w in ws && Listed(w)
        ensures WindowTarget(w) in WindowTargets(ws)
      {
        if w != ws[|ws| - 1] {
          var k :| 0 <= k < |ws| && ws[k] == w;
          assert w in ws[..|ws| - 1] by { assert ws[..|ws| - 1][k] == w; }
        }
      }
    }
  }

  /**
   * With distinct handles, a window has an entry in the picker exactly when it
   * passes every check: a window refused for any reason has no entry under its id.
   */
  lemma EntryExactlyWhenListed(ws: seq<WindowInfo>, w: WindowInfo)
    requires w in ws
    requires forall v :: v in ws ==> ISIZE_MIN <= v.hwnd <= ISIZE_MAX
    requires forall v, u :: v in ws && u in ws && v.hwnd == u.hwnd ==> v == u
    ensures (exists t :: t in WindowTargets(ws) && t.id == WindowId(w.hwnd)) <==> Listed(w)
  {
    WindowTargetsSound(ws);
    WindowTargetsComplete(ws);
    if t :| t in WindowTargets(ws) && t.id == WindowId(w.hwnd) {
      var v :| v in ws && Listed(v) && t == WindowTarget(v);
      WindowIdRoundTrip(v.hwnd);
      WindowIdRoundTrip(w.hwnd);
      assert v.hwnd == w.hwnd;
    }
    if Listed(w) {
      assert WindowTarget(w) in WindowTargets(ws);
    }
  }

  /** No listed window belongs to the app itself, and every window entry's id parses back to its handle. */
  lemma WindowEntries(ws: seq<WindowInfo>)
    requires forall w :: w in ws ==> ISIZE_MIN <= w.hwnd <= ISIZE_MAX
    ensures forall t :: t in WindowTargets(ws) ==>
      t.targetType == "window" && t.title != [] && t.title != DESKTOP_TITLE && !Contains(ToLower(t.processName), OWN_APP) &&
      ParseTargetId(t.id).Ok? && ParseTargetId(t.id).value.WindowRef?
  {
    WindowTargetsSound(ws);
    forall t | t in WindowTargets(ws)
      ensures ParseTargetId(t.id).Ok? && ParseTargetId(t.id).value.WindowRef?
    {
      var w :| w in ws && Listed(w) && t == WindowTarget(w);
      WindowIdRoundTrip(w.hwnd);
    }
  }

  /** One entry per monitor, in order; entry `i` has id `monitor:<i>`, which parses back to `i`, and no process. */
  lemma MonitorEntries(ms: seq<MonitorInfo>, thumbOf: string -> string)
    requires |ms| <= USIZE_MAX
    ensures |MonitorTargets(ms, thumbOf)| == |ms|
    ensures forall i :: 0 <= i < |ms| ==>
      MonitorTargets(ms, thumbOf)[i].id == MonitorId(i) && ParseTargetId(MonitorTargets(ms, thumbOf)[i].id) == Ok(MonitorRef(i)) &&
      MonitorTargets(ms, thumbOf)[i].processId == 0 && MonitorTargets(ms, thumbOf)[i].targetType == "monitor"
  {
    forall i | 0 <= i < |ms|
      ensures ParseTargetId(MonitorId(i)) == Ok(MonitorRef(i))
    {
      MonitorIdRoundTrip(i);
    }
  }
}

=== FILE: text.dfy ===
/**
 * Text helpers the capture module relies on: ASCII lower-casing, substring
 * search, decimal formatting (`format!("{}", n)`) and the standard library's
 * decimal integer parser (`str::parse::<isize>()` / `str::parse::<usize>()`),
 * including the order in which it reports its errors.
 */
module Text {
  import opened Outcomes

  function LowerChar(c: char): char
  {
    if 'A' <= c <= 'Z' then (c as int + 32) as char else c
  }

  /** Lower-casing, restricted to the ASCII letters. */
  function ToLower(s: string): (r: string)
    ensures |r| == |s|
    ensures forall i :: 0 <= i < |s| ==> r[i] == LowerChar(s[i])
  {
    seq(|s|, i requires 0 <= i < |s| => LowerChar(s[i]))
  }

  /** Lower-casing twice changes nothing more. */
  lemma ToLowerIdempotent(s: string)
    ensures ToLower(ToLower(s)) == ToLower(s)
  {
  }

  /** `s.contains(pat)`: `pat` occurs in `s` as a contiguous substring. */
  predicate Contains(s: string, pat: string)
  {
    exists i :: 0 <= i <= |s| - |pat| && OccursAt(s, pat, i)
  }

  predicate OccursAt(s: string, pat: string, i: int)
    requires 0 <= i <= |s| - |pat|
  {
    s[i..i + |pat|] == pat
  }

  predicate IsDigit(c: char)
  {
    '0' <= c <= '9'
  }

  function DigitValue(c: char): nat
    requires IsDigit(c)
  {
    c as int - '0' as int
  }

  function DigitChar(d: nat): (c: char)
    requires d < 10
    ensures IsDigit(c) && DigitValue(c) == d
  {
    ('0' as int + d) as char
  }

  /** Decimal rendering of a natural number, most significant digit first. */
  function NatToString(n: nat): (r: string)
    ensures |r| >= 1
    ensures forall i :: 0 <= i < |r| ==> IsDigit(r[i])
    decreases n
  {
    if n < 10 then [DigitChar(n)] else NatToString(n / 10) + [DigitChar(n % 10)]
  }

  /** Decimal rendering of an integer, with a leading '-' when negative. */
  function IntToString(i: int): string
  {
    if i < 0 then "-" + NatToString(-i) else NatToString(i)
  }

  const ISIZE_MIN: int := -0x8000_0000_0000_0000
  const ISIZE_MAX: int := 0x7FFF_FFFF_FFFF_FFFF
  const USIZE_MAX: int := 0xFFFF_FFFF_FFFF_FFFF

  /** The kinds of `ParseIntError` a decimal parse can report. */
  datatype IntErrorKind = Empty | InvalidDigit | PosOverflow | NegOverflow

  /** The text `ParseIntError` displays for each kind. */
  function ErrorText(k: IntErrorKind): string
  {
    match k
    case Empty => "cannot parse integer from empty string"
    case InvalidDigit => "invalid digit found in string"
    case PosOverflow => "number too large to fit in target type"
    case NegOverflow => "number too small to fit in target type"
  }

  /** Every character of `s` is a decimal digit. */
  predicate AllDigits(s: string)
  {
    forall i :: 0 <= i < |s| ==> IsDigit(s[i])
  }

  /** The value of a run of decimal digits, most significant first; no digits is 0. */
  function DecimalValue(ds: string): nat
    requires AllDigits(ds)
    decreases |ds|
  {
    if ds == [] then 0 else DecimalValue(ds[..|ds| - 1]) * 10 + DigitValue(ds[|ds| - 1])
  }

  /**
   * The digit loop of the parser, scanning left to right: at each position
   * a non-digit is reported before an overflow, and an earlier failure
   * hides every later one. Negative numbers accumulate downwards. A scan
   * succeeds exactly when every character is a digit and their value (negated
   * when accumulating downwards) lies in [lo, hi].
   */
  function ScanDigits(digits: string, negative: bool, lo: int, hi: int): (r: Result<int, IntErrorKind>)
    requires lo <= 0 <= hi
    ensures r.Ok? && negative ==> lo <= r.value <= 0
    ensures r.Ok? && !negative ==> 0 <= r.value <= hi
    ensures r.Ok? ==> AllDigits(digits) && r.value == (if negative then -(DecimalValue(digits) as int) else DecimalValue(digits))
    ensures AllDigits(digits) && (if negative then lo <= -(DecimalValue(digits) as int) else DecimalValue(digits) <= hi) ==> r.Ok?
    ensures r == Err(InvalidDigit) ==> !AllDigits(digits)
    ensures r.Err? ==> r.error != Empty
    ensures r.Err? && r.error == PosOverflow ==> !negative
    ensures r.Err? && r.error == NegOverflow ==> negative
    decreases |digits|
  {
    if digits == [] then Ok(0)
    else
      match ScanDigits(digits[..|digits| - 1], negative, lo, hi)
      case Err(k) => Err(k)
      case Ok(acc) =>
        var c := digits[|digits| - 1];
        if !IsDigit(c) then Err(InvalidDigit)
        else if negative then
          if acc * 10 - DigitValue(c) < lo then Err(NegOverflow) else Ok(acc * 10 - DigitValue(c))
        else
          if acc * 10 + DigitValue(c) > hi then Err(PosOverflow) else Ok(acc * 10 + DigitValue(c))
  }

  /** The digits a parse reads: `src` without the leading sign its type accepts ('+' always, '-' when signed). */
  function Unsigned(src: string, signed: bool): string
  {
    if src != [] && (src[0] == '+' || (signed && src[0] == '-')) then src[1..] else src
  }

  /** Whether a parse reads `src` as a negative number. */
  predicate Negated(src: string, signed: bool)
  {
    signed && src != [] && src[0] == '-'
  }

  /**
   * `from_str_radix(src, 10)` for an integer type with range [lo, hi]: it
   * succeeds exactly on an optional sign followed by at least one digit whose
   * value is in range, and the result is that value.
   */
  function ParseInt(src: string, signed: bool, lo: int, hi: int): (r: Result<int, IntErrorKind>)
    requires lo <= 0 <= hi
    ensures r.Ok? ==> lo <= r.value <= hi
    ensures r.Ok? ==> (var ds := Unsigned(src, signed);
      ds != [] && AllDigits(ds) && r.value == (if Negated(src, signed) then -(DecimalValue(ds) as int) else DecimalValue(ds)))
    ensures (var ds := Unsigned(src, signed);
      ds != [] && AllDigits(ds) && (if Negated(src, signed) then lo <= -(DecimalValue(ds) as int) else DecimalValue(ds) <= hi)) ==> r.Ok?
    ensures r == Err(InvalidDigit) ==> (var ds := Unsigned(src, signed); ds == [] || !AllDigits(ds))
    ensures r == Err(Empty) <==> src == []
  {
    if src == [] then Err(Empty)
    else if |src| == 1 && (src[0] == '+' || src[0] == '-') then Err(InvalidDigit)
    else if src[0] == '+' then ScanDigits(src[1..], false, lo, hi)
    else if src[0] == '-' && signed then ScanDigits(src[1..], true, lo, hi)
    else ScanDigits(src, false, lo, hi)
  }

  /** `src.parse::<isize>()` on a 64-bit target. */
  function ParseIsize(src: string): Result<int, IntErrorKind>
  {
    ParseInt(src, true, ISIZE_MIN, ISIZE_MAX)
  }

  /** `src.parse::<usize>()` on a 64-bit target. */
  function ParseUsize(src: string): Result<int, IntErrorKind>
  {
    ParseInt(src, false, 0, USIZE_MAX)
  }

  /** The digits of `n` scan back to `n` (or to `-n` when accumulated downwards) while in range. */
  lemma {:induction false} ScanNatToString(n: nat, negative: bool, lo: int, hi: int)
    requires lo <= 0 <= hi
    requires negative ==> -(n as int) >= lo
    requires !negative ==> n <= hi
    ensures ScanDigits(NatToString(n), negative, lo, hi) == Ok(if negative then -(n as int) else n)
    decreases n
  {
    var s := NatToString(n);
    if n < 10 {
      assert s[..0] == [];
    } else {
      var prefix := NatToString(n / 10);
      assert s[..|s| - 1] == prefix;
      ScanNatToString(n / 10, negative, lo, hi);
    }
  }

  /** Formatting a handle and parsing it back as an `isize` is the identity. */
  lemma IsizeRoundTrip(i: int)
    requires ISIZE_MIN <= i <= ISIZE_MAX
    ensures ParseIsize(IntToString(i)) == Ok(i)
  {
    if i < 0 {
      var s := IntToString(i);
      assert s[1..] == NatToString(-i);
      ScanNatToString(-i, true, ISIZE_MIN, ISIZE_MAX);
    } else {
      var s := NatToString(i);
      assert IsDigit(s[0]);
      ScanNatToString(i, false, ISIZE_MIN, ISIZE_MAX);
    }
  }

  /** Formatting an index and parsing it back as a `usize` is the identity. */
  lemma UsizeRoundTrip(n: nat)
    requires n <= USIZE_MAX
    ensures ParseUsize(NatToString(n)) == Ok(n)
  {
    var s := NatToString(n);
    assert IsDigit(s[0]);
    ScanNatToString(n, false, 0, USIZE_MAX);
  }

  /** A `usize` never parses from text that starts with '-' (the sign is only stripped for signed types). */
  lemma UsizeRejectsMinus(src: string)
    requires |src| >= 1 && src[0] == '-'
    ensures ParseUsize(src) == Err(InvalidDigit)
  {
    if |src| > 1 {
      ScanLeadingNonDigit(src, false, 0, USIZE_MAX);
    }
  }

  /**
   * A non-digit reached while the digits before it still scan in range is the
   * error a scan reports, whatever follows it.
   */
  lemma {:induction false} ScanStopsAtNonDigit(digits: string, k: nat, negative: bool, lo: int, hi: int)
    requires lo <= 0 <= hi
    requires k < |digits| && !IsDigit(digits[k])
    requires ScanDigits(digits[..k], negative, lo, hi).Ok?
    ensures ScanDigits(digits, negative, lo, hi) == Err(InvalidDigit)
    decreases |digits|
  {
    var prefix := digits[..|digits| - 1];
    if k < |digits| - 1 {
      assert prefix[..k] == digits[..k];
      ScanStopsAtNonDigit(prefix, k, negative, lo, hi);
    } else {
      assert prefix == digits[..k];
    }
  }

  /** A non-digit in first position is the error a scan reports, whatever follows it, for every integer type. */
  lemma ScanLeadingNonDigit(digits: string, negative: bool, lo: int, hi: int)
    requires lo <= 0 <= hi
    requires |digits| >= 1 && !IsDigit(digits[0])
    ensures ScanDigits(digits, negative, lo, hi) == Err(InvalidDigit)
  {
    assert digits[..0] == [];
    ScanStopsAtNonDigit(digits, 0, negative, lo, hi);
  }
}

=== FILE: thumbnail.dfy ===
/**
 * Picker thumbnails: the aspect-preserving size computation `thumb_size`,
 * the packed BGRA -> JPEG -> base64 conversion, and the size gates of the
 * window and monitor thumbnail captures. The GDI calls that grab the pixels
 * and the base64 encoder are passed in as functions.
 *
 * `thumb_size` computes in `f64`; here it computes over exact reals, so the
 * facts proved are those that do not depend on floating-point rounding.
 */
module Thumbnail {
  import opened Outcomes
  import opened FramePipeline

  const THUMB_MAX_W: nat := 320
  const THUMB_MAX_H: nat := 180
  /** The JPEG quality of thumbnails (live frames use a higher one). */
  const THUMB_JPEG_QUALITY: nat := 70
  /** Windows narrower or shorter than this get no thumbnail. */
  const MIN_WINDOW_SIDE: int := 10

  /** The base64 encoder (`general_purpose::STANDARD.encode`), a foreign library. */
  type Encoder = seq<bv8> -> string

  /** The pixels the GDI stretch-blit leaves in a `tw` x `th` bitmap, as read by `read_bitmap_pixels`. */
  type Grabber = (nat, nat) -> seq<bv8>

  function MinReal(a: real, b: real): real
  {
    if a <= b then a else b
  }

  /** `f64::round` on a non-negative value: halves round up. */
  function Round(x: real): int
  {
    (x + 0.5).Floor
  }

  /** The scale factor: the largest that fits 320 x 180, but never above 1. */
  function Scale(w: nat, h: nat): (s: real)
    requires w > 0 && h > 0
    ensures 0.0 < s <= 1.0
    ensures s <= THUMB_MAX_W as real / w as real && s <= THUMB_MAX_H as real / h as real
    ensures s == 1.0 || s == THUMB_MAX_W as real / w as real || s == THUMB_MAX_H as real / h as real
  {
    MinReal(MinReal(THUMB_MAX_W as real / w as real, THUMB_MAX_H as real / h as real), 1.0)
  }

  /** One side of the thumbnail: the scaled side, rounded, at least 1. */
  function ScaledSide(side: nat, s: real): nat
  {
    var r := Round(side as real * s);
    if r < 1 then 1 else r
  }

  /** `thumb_size`: the thumbnail dimensions for a `w` x `h` source. */
  function ThumbSize(w: nat, h: nat): (nat, nat)
  {
    if w == 0 || h == 0 then (1, 1)
    else var s := Scale(w, h); (ScaledSide(w, s), ScaledSide(h, s))
  }

  /** Rounding never goes past an integer bound, so neither does a side that is scaled to at most `n`. */
  lemma ScaledSideAtMost(side: nat, s: real, n: nat)
    requires side as real * s <= n as real && n >= 1
    ensures 1 <= ScaledSide(side, s) <= n
  {
  }

  /** Rounding an integer gives it back. */
  lemma RoundInt(n: int)
    ensures Round(n as real) == n
  {
  }

  /** A side scaled by at most `bound / side` is at most `bound`. */
  lemma ScaledAtMost(side: nat, s: real, bound: nat)
    requires side > 0 && 0.0 < s && s <= bound as real / side as real
    ensures side as real * s <= bound as real
  {
    var q := bound as real / side as real;
    assert side as real * q == bound as real;
    assert side as real * s <= side as real * q;
  }

  /** A side scaled by at most 1 does not grow. */
  lemma ScaledShrinks(side: nat, s: real)
    requires 0.0 < s <= 1.0
    ensures side as real * s <= side as real
  {
  }

  /** A zero side gives a 1 x 1 thumbnail. */
  lemma ThumbSizeZero(w: nat, h: nat)
    requires w == 0 || h == 0
    ensures ThumbSize(w, h) == (1, 1)
  {
  }

  /** The thumbnail is at least 1 x 1, fits 320 x 180, and is never larger than a non-empty source. */
  lemma ThumbSizeFits(w: nat, h: nat)
    ensures 1 <= ThumbSize(w, h).0 <= THUMB_MAX_W && 1 <= ThumbSize(w, h).1 <= THUMB_MAX_H
    ensures w > 0 && h > 0 ==> ThumbSize(w, h).0 <= w && ThumbSize(w, h).1 <= h
  {
    if w > 0 && h > 0 {
      var s := Scale(w, h);
      ScaledAtMost(w, s, THUMB_MAX_W);
      ScaledAtMost(h, s, THUMB_MAX_H);
      ScaledSideAtMost(w, s, THUMB_MAX_W);
      ScaledSideAtMost(h, s, THUMB_MAX_H);
      ScaledShrinks(w, s);
      ScaledShrinks(h, s);
      ScaledSideAtMost(w, s, w);
      ScaledSideAtMost(h, s, h);
    }
  }

  /** A source that already fits 320 x 180 keeps its size. */
  lemma ThumbSizeKeepsSmall(w: nat, h: nat)
    requires 0 < w <= THUMB_MAX_W && 0 < h <= THUMB_MAX_H
    ensures ThumbSize(w, h) == (w, h)
  {
    assert THUMB_MAX_W as real / w as real >= 1.0;
    assert THUMB_MAX_H as real / h as real >= 1.0;
    assert Scale(w, h) == 1.0;
    RoundInt(w);
    RoundInt(h);
  }

  /** What `bgra_to_jpeg_base64` returns: the base64 JPEG of the packed conversion, or "" when compression fails. */
  function JpegBase64(bgra: seq<bv8>, w: nat, h: nat, compress: Compressor, encode: Encoder): string
  {
    match compress(RowRgb(bgra, 0, w * h), w, h, THUMB_JPEG_QUALITY)
    case Ok(jpeg) => encode(jpeg)
    case Err(_) => ""
  }

  /** `bgra_to_jpeg_base64`: repack the bitmap, compress at quality 70, encode; a failed compression yields "". */
  method BgraToJpegBase64(bgra: seq<bv8>, w: nat, h: nat, compress: Compressor, encode: Encoder) returns (r: string)
    ensures r == JpegBase64(bgra, w, h, compress, encode)
    ensures compress(RowRgb(bgra, 0, w * h), w, h, THUMB_JPEG_QUALITY).Err? ==> r == ""
  {
    var rgb := RepackPacked(bgra, w, h);
    var jpeg := compress(rgb, w, h, THUMB_JPEG_QUALITY);
    match jpeg {
      case Ok(bytes) => r := encode(bytes);
      case Err(_) => r := "";
    }
  }

  /** A window rectangle in screen coordinates (`RECT`). */
  datatype Rect = Rect(left: int, top: int, right: int, bottom: int)

  /** `(thumbnail, width, height)` as `capture_window_thumbnail` returns it. */
  datatype WindowThumb = WindowThumb(data: string, width: nat, height: nat)

  /** A window side: the rectangle's extent, at least 1. */
  function Side(lo: int, hi: int): (r: nat)
    ensures r >= 1 && r >= hi - lo
    ensures hi - lo >= 1 ==> r == hi - lo
    ensures hi - lo < 1 ==> r == 1
  {
    if hi - lo < 1 then 1 else hi - lo
  }

  /** Whether a `w` x `h` window is large enough to get a thumbnail. */
  predicate LargeEnough(w: nat, h: nat)
  {
    w >= MIN_WINDOW_SIDE && h >= MIN_WINDOW_SIDE
  }

  /**
   * `capture_window_thumbnail`. A minimised window, or one whose rectangle
   * cannot be read, gives ("", 0, 0); a window under 10 pixels on a side, or a
   * screen DC that cannot be had, gives "" with the window's size; otherwise
   * the window is scaled to `thumb_size` and converted.
   */
  method WindowThumbnail(iconic: bool, rect: Option<Rect>, screenDc: bool, grab: Grabber,
                         compress: Compressor, encode: Encoder) returns (r: WindowThumb)
    ensures iconic || rect.None? ==> r == WindowThumb("", 0, 0)
    ensures !iconic && rect.Some? ==>
      var w, h := Side(rect.value.left, rect.value.right), Side(rect.value.top, rect.value.bottom);
      var (tw, th) := ThumbSize(w, h);
      r.width == w && r.height == h &&
      r.data == (if LargeEnough(w, h) && screenDc then JpegBase64(grab(tw, th), tw, th, compress, encode) else "")
  {
    if iconic {
      return WindowThumb("", 0, 0);
    }
    if rect.None? {
      return WindowThumb("", 0, 0);
    }
    var w := Side(rect.value.left, rect.value.right);
    var h := Side(rect.value.top, rect.value.bottom);
    if w < MIN_WINDOW_SIDE || h < MIN_WINDOW_SIDE {
      return WindowThumb("", w, h);
    }
    var (tw, th) := ThumbSize(w, h);
    if !screenDc {
      return WindowThumb("", w, h);
    }
    var data := BgraToJpegBase64(grab(tw, th), tw, th, compress, encode);
    r := WindowThumb(data, w, h);
  }

  /**
   * `capture_monitor_thumbnail`: "" when the monitor DC cannot be created or
   * reports a zero side, otherwise the monitor scaled to `thumb_size` and
   * converted. The monitor's size here is what `GetDeviceCaps` reports.
   */
  method MonitorThumbnail(monitorDc: bool, w: nat, h: nat, grab: Grabber,
                          compress: Compressor, encode: Encoder) returns (r: string)
    ensures !monitorDc || w == 0 || h == 0 ==> r == ""
    ensures monitorDc && w > 0 && h > 0 ==>
      var (tw, th) := ThumbSize(w, h);
      r == JpegBase64(grab(tw, th), tw, th, compress, encode)
  {
    if !monitorDc {
      return "";
    }
    if w == 0 || h == 0 {
      return "";
    }
    var (tw, th) := ThumbSize(w, h);
    r := BgraToJpegBase64(grab(tw, th), tw, th, compress, encode);
  }

  /** The gate passes exactly when the rectangle itself is at least 10 x 10: the clamp to 1 never lets a smaller window through. */
  lemma SizeGate(rect: Rect)
    ensures LargeEnough(Side(rect.left, rect.right), Side(rect.top, rect.bottom)) <==>
      rect.right - rect.left >= MIN_WINDOW_SIDE && rect.bottom - rect.top >= MIN_WINDOW_SIDE
  {
  }
}
